=== FILE: README.md ===
# QuizTime game room — a verified Dafny model

QuizTime is a multiplayer quiz server. One `GameRoom` holds a roster of
players and a fixed question bank. It moves through the phases LOBBY,
COUNTDOWN, QUESTION and RESULTS. It grades answers, deals and applies
one-shot abilities (`right`, `trick`, `help`, `steal`), keeps a kick list
with a 60-second expiry and a chat history capped at 100 messages, and
ranks the players at the end. Each socket connection runs a small set of
handlers. These restore a session from a token, join new players, let only
the host drive the countdown and the game, and forward answers, chat and
ability use to the room.

The model is split into six modules, one file each:

| file | module | models |
|---|---|---|
| `quiz.dfy` | `Quiz` | constants, the question bank, messages, the value of a player record, random draws |
| `player.dfy` | `Players` | `class Player`: the mutable record of server/game/Player.js |
| `rules.dfy` | `Rules`, `AbilityFacts` | the room's rules as functions on roster values, and the lemmas about them |
| `standings.dfy` | `Standings` | `calculateResults`: a stable descending sort read off at both ends |
| `room.dfy` | `Room` | `class GameRoom`: every operation of server/game/GameRoom.js as a method that changes fields |
| `socket.dfy` | `Socket` | `class Connection` and `SetupSocket`: the dispatch decisions of server/sockets/gameSocket.js |

The room and the player are classes whose methods update fields in place.
The room keeps its roster as a sequence of `Player` references. `View()`
reads that sequence as a sequence of `PlayerState` values. Each method that
touches players is proved against a function on those values in `Rules`
(`WithHost`, `Without`, `Graded`, `DealtAll`, `Answered`, `Use`, and so on).
The properties the game promises are lemmas about those functions.

The room invariant `Valid()` has four parts:

- `RosterValid`: ids are unique and exactly the `hostId` player carries
  `isHost`. A non-empty room has a host. No inventory holds the same
  ability type twice.
- `ClocksValid`: the chat is capped and both clocks stay in range.
- `TimerLinked`: a running question timer grades the question on display.
- `Fixed`: the bank is well formed and the unused `countdownTimer` handle
  stays unset.

Each method requires and ensures only the parts it reads or writes. Its
field-level `modifies` clause keeps the other parts.

Timers are explicit steps. `CountdownTick` and `QuestionTick` are one
firing of the 1-second intervals. `SettleDone` is the 3-second timeout
scheduled after grading. Because `endGame` never cancels that timeout, the
room counts the pending ones in `pendingSettles`. Three things the room
does not own are passed in as parameters:

- `Date.now()` arrives as `now`.
- Every `Math.random()` result arrives as a `Random`, a real in `[0, 1)`.
  `Math.floor(r * n)` is modelled as `(r * n).Floor` over the reals, not
  over the rounded double product.
- The uuid of a new player arrives as `freshId`.

The token check arrives as a `Credential`: no token, a rejected token, or
the verified id.

Where the code's names suggest more than the code does, the model follows
the code:

- `cancelCountdown` tests `countdownTimer`, which nothing ever sets
  (server/game/GameRoom.js:287), so it is a no-op.
- `useAbility` only warns when it is called outside an open, unpaused
  question. The ability is still spent and applied.
- An ability that is not held makes `useAbility` throw. A caller missing
  from the roster also throws, because `player.abilities` is read before
  the null check. Past the last question there is no current question.
  Then `right` always throws, and `trick` or `help` throw when their
  target was found; a `trick` or `help` whose target is not found just
  does nothing. The instance is spent before any of these throws. The model
  returns these as `Threw(...)` outcomes, and the socket then sends no
  `abilityUsed` acknowledgement.
- The private sends of `useAbility` mostly reach no one. The "only during
  an active question" notice and the `right` reveal go to the caller's
  recorded `socketId` (server/game/GameRoom.js:447, 476). That field is
  `null` for every player seated by `join` (server/game/Player.js:4); only
  `restorePlayer` sets it (server/game/GameRoom.js:521). The `help` reveal
  goes to a channel named after the caller's id
  (server/game/GameRoom.js:497), and no socket ever joins such a channel.
  The outcome records what the server tries to send, not what arrives.
- `pauseGame` has no phase check, and `kickPlayer` has no host check.
- `sendMessage` does not reject empty text. The stored `playerId` is the
  connection's socket id, not the player's identity.
- A player removed from the roster keeps `isHost` on its own record. Host
  gating in the socket reads the connection's own `Player` object, so a
  removed host's connection still passes the gate.

## Model

| member | source | states |
|---|---|---|
| Quiz.WrongAnswers | server/game/GameRoom.js:482 | the options kept are exactly the answer ids other than the correct one |
| Quiz.RandomIndex | server/game/GameRoom.js:483 | `Math.floor(r * n)` is an index below `n` |
| Players.Player.constructor | server/game/Player.js:2-12 | a new player has the given id, nickname and avatar, score 0, is not host, has no answers and no abilities, is connected and has no socket id |
| Rules.IndexOf | server/game/GameRoom.js:186 | `find` by id gives the first seat holding that id, and gives -1 exactly when no seat does |
| Rules.WithHost | server/game/GameRoom.js:152-157 | after `setHost(id)` the host flag is set exactly on the seats with that id; nothing else in any record changes |
| Rules.HostCount | server/game/GameRoom.js:152-157 | with unique ids, flags that agree with `hostId` give exactly one host when `hostId` is seated and none otherwise |
| Rules.WithHostRoster | server/game/GameRoom.js:152-157 | making a seated player host establishes the roster invariant |
| Rules.JoinRoster | server/game/GameRoom.js:159-163 | appending a new id keeps the invariant; the first player to arrive becomes the only host |
| Rules.LeaveRoster | server/game/GameRoom.js:185-197 | removing a seat keeps the invariant, with `players[0]` made host when the host leaves and others remain |
| Rules.Without | server/game/GameRoom.js:188 | the filtered roster holds no seat with the removed id and is no longer than before |
| Rules.WithoutAbsent | server/game/GameRoom.js:186-188 | filtering out an id nobody holds changes nothing |
| Rules.WithoutAt | server/game/GameRoom.js:186-188 | with unique ids, the filter removes exactly the found seat and keeps the others in order |
| Rules.Swept | server/game/GameRoom.js:169-178 | the sweep keeps only entries already in the kick map, each with its recorded time; which ones survive is stated by `KickWindow` |
| Rules.KickWindow | server/game/GameRoom.js:169-183 | an id kicked at `t` survives the sweep exactly while `now - t` is at most 60000 ms |
| Rules.Appended | server/game/GameRoom.js:233-239 | the history never exceeds 100 entries; the new message is last; below the cap nothing is dropped; at the cap exactly the oldest is dropped |
| Rules.AvailableFrom | server/game/GameRoom.js:308-310 | the catalogue types from a position on that are not held, without repeats |
| Rules.Available | server/game/GameRoom.js:308-310 | exactly the types not held, without repeats |
| Rules.CatalogueComplete | server/game/GameRoom.js:141-146 | the catalogue lists every ability type |
| Rules.Granted | server/game/GameRoom.js:307-318 | a grant happens exactly when the draw is above 0.7, fewer than 5 abilities are held and some type is not held; it adds exactly one type not already held at the end, and keeps the inventory free of repeats |
| Rules.GradeOne | server/game/GameRoom.js:302-319 | a player gains exactly 100 points when the recorded answer is correct and none otherwise; only the score and the inventory change, and the inventory changes exactly when a correct answerer's draw is above 0.7 with fewer than 5 held and some type left to grant |
| Rules.Graded | server/game/GameRoom.js:301-320 | `checkAnswers` over the roster keeps the number of seats; each seat's result is `GradeOne`, and `GradedRoster` and `GradedTotal` give the invariant and the score total |
| Rules.GradedRoster | server/game/GameRoom.js:301-320 | grading keeps the roster invariant |
| Rules.GradedTotal | server/game/GameRoom.js:301-320 | grading raises the room's total score by exactly 100 per correct answer |
| Rules.CapNeverBinds | server/game/GameRoom.js:307 | an inventory without repeats always holds fewer than 5 abilities |
| Rules.DealFrom | server/game/GameRoom.js:377-385 | the inner dealing loop hands out at most one type per draw; `DealFromDistinct` gives that the types are distinct, drawn from the supply, and as many as the draws and supply allow |
| Rules.DealFromDistinct | server/game/GameRoom.js:377-385 | draws against a shrinking copy of the catalogue give distinct catalogue types, as many as the draws allow |
| Rules.Dealt | server/game/GameRoom.js:376-385 | each player is dealt exactly two different types |
| Rules.DealtAll | server/game/GameRoom.js:374-388 | dealing replaces every inventory with two distinct types and changes nothing else |
| Rules.DealtRoster | server/game/GameRoom.js:374-388 | dealing keeps the roster invariant |
| Rules.Answered | server/game/GameRoom.js:427-437 | the answer is recorded, with the time, on the first seat with the id, and every other seat is unchanged, whether or not ids are unique |
| Rules.AnsweredRoster | server/game/GameRoom.js:427-437 | recording an answer keeps the roster invariant |
| Rules.RemoveFirst | server/game/GameRoom.js:441-453 | the spend removes exactly one instance of the type |
| Rules.RemoveFirstAt | server/game/GameRoom.js:441-453 | `findIndex` followed by `splice` is that removal |
| Rules.SpentIsGone | server/game/GameRoom.js:453 | in an inventory without repeats the spent type is gone afterwards |
| Rules.TargetIndex | server/game/GameRoom.js:458 | a non-empty target id that is seated is found at its first seat; a missing, empty or unseated target is not found |
| Rules.Stolen | server/game/GameRoom.js:461-473 | the `steal` branch keeps the number of seats; `StolenScores` and `StolenOnlyScores` give the score movement and that nothing else changes |
| Rules.Tricked | server/game/GameRoom.js:480-491 | the `trick` branch keeps the number of seats; `TrickedPlants` and `TrickedOnlyAnswers` give the planted wrong answer and that nothing else changes |
| Rules.Effect | server/game/GameRoom.js:456-507 | the `switch` of `useAbility` keeps the number of seats; `EffectKeepsSeats` and `EffectKeepsScoresNonNegative` give what no effect changes |
| Rules.Spent | server/game/GameRoom.js:453 | the `splice` keeps the number of seats; `SpentKeepsScores`, `SpentOnlyAbilities` and `SpentIsGone` give that only the caller's inventory changes and the spent type is gone |
| Rules.Use | server/game/GameRoom.js:439-507 | `useAbility` keeps the number of seats; `UseSpendsOne`, `UseRoster`, `ThrowKeepsSpend`, `StealMovesPoints`, `TrickPlantsWrongAnswer` and `LookingChangesNoScores` give its outcomes and effects |
| AbilityFacts.StolenOnlyScores | server/game/GameRoom.js:461-473 | `steal` changes only scores |
| AbilityFacts.TrickedOnlyAnswers | server/game/GameRoom.js:480-491 | `trick` changes only answers |
| AbilityFacts.EffectKeepsSeats | server/game/GameRoom.js:460-507 | no ability effect changes an id, a host flag or an inventory |
| AbilityFacts.UseSpendsOne | server/game/GameRoom.js:439-453 | `useAbility` fails for a caller not seated and for a type not held, changing nothing; otherwise exactly one instance leaves the caller's inventory and no other inventory changes |
| AbilityFacts.UseKeepsSeats | server/game/GameRoom.js:439-507 | `useAbility` changes no id and no host flag |
| AbilityFacts.UseRoster | server/game/GameRoom.js:439-507 | `useAbility` keeps the roster invariant |
| AbilityFacts.SpentKeepsScores | server/game/GameRoom.js:453 | spending changes no score |
| AbilityFacts.ThrowKeepsSpend | server/game/GameRoom.js:453-500 | for a seated caller holding the type, `useAbility` throws for lack of a current question exactly past the last question with `right`, or with `trick` or `help` and a found target; the spent instance stays spent |
| AbilityFacts.SpentOnlyAbilities | server/game/GameRoom.js:453 | the splice changes nothing but the caller's inventory |
| AbilityFacts.EffectKeepsScoresNonNegative | server/game/GameRoom.js:460-507 | no ability effect makes a non-negative score negative |
| AbilityFacts.UseKeepsScoresNonNegative | server/game/GameRoom.js:439-473 | `useAbility` never makes a non-negative score negative |
| AbilityFacts.StolenScores | server/game/GameRoom.js:461-473 | the thief gains 50; the victim loses 50 only when holding at least 50; every other record is unchanged |
| AbilityFacts.StealMovesPoints | server/game/GameRoom.js:439-473 | the same through `useAbility`, for a caller holding `steal` and another seated target |
| AbilityFacts.TrickedPlants | server/game/GameRoom.js:480-491 | the target's answer to the question becomes a wrong option of that question, stamped `now`; the target's other answers and every other seat are unchanged |
| AbilityFacts.TrickPlantsWrongAnswer | server/game/GameRoom.js:439-491 | the same through `useAbility` on a well-formed current question: only the target's answer to it changes, and otherwise only the spent inventory |
| AbilityFacts.LookingChangesNoScores | server/game/GameRoom.js:475-504 | `right` and `help` change nothing but the spent inventory |
| Standings.Insert | server/game/GameRoom.js:394 | inserting into a descending list keeps it descending and is a permutation; `x` goes in front of a head it ties with |
| Standings.Rank | server/game/GameRoom.js:394 | in a descending list, the elements before the position score strictly higher than `x` and none from it on does |
| Standings.InsertStable | server/game/GameRoom.js:394 | the new element lands right after exactly the elements scoring strictly higher, ahead of every element it ties with, and the others keep their order |
| Standings.SortByScore | server/game/GameRoom.js:394 | the sort yields a descending permutation of the roster |
| Standings.FirstMax | server/game/GameRoom.js:396 | the first seat, in roster order, with the highest score |
| Standings.LastMin | server/game/GameRoom.js:397 | the last seat, in roster order, with the lowest score |
| Standings.SortHead | server/game/GameRoom.js:394-396 | the stable sort puts the first top scorer in front |
| Standings.SortLast | server/game/GameRoom.js:394-397 | the stable sort puts the last bottom scorer at the end |
| Standings.CalculateResults | server/game/GameRoom.js:390-399 | null exactly for an empty room; the winner is the first top scorer; the loser is the last bottom scorer with two or more players, and the blank entry otherwise |
| Room.DealHand | server/game/GameRoom.js:377-385 | the hand dealt is two distinct types, as `Dealt` specifies |
| Room.FindAbility | server/game/GameRoom.js:441 | `findIndex` gives the first position of the type, or -1 exactly when it is not held |
| Room.GradeRecord | server/game/GameRoom.js:302-319 | one player is graded as `GradeOne` specifies |
| Room.DealRecord | server/game/GameRoom.js:375-385 | one player's inventory becomes the dealt hand |
| Room.GameRoom.constructor | server/game/GameRoom.js:4-150 | a new room is in the lobby, empty, with no host, no kicks, clocks at 0, no chat, and satisfies the invariant |
| Room.GameRoom.OneHost | server/game/GameRoom.js:152-163 | a non-empty room has exactly one host and an empty one has none |
| Room.GameRoom.Find | server/game/GameRoom.js:186 | the loop finds the first seat with the id, or -1 when there is none |
| Room.GameRoom.SetHost | server/game/GameRoom.js:152-157 | the roster becomes `WithHost` of the old one and `hostId` is set |
| Room.GameRoom.AddPlayer | server/game/GameRoom.js:159-167 | the player is appended at the end; the first player becomes host; the invariant is kept |
| Room.GameRoom.Join | server/game/GameRoom.js:160 | `push` appends the record and changes no other seat |
| Room.GameRoom.CleanKickedPlayers | server/game/GameRoom.js:169-178 | the sweep keeps exactly the entries at most 60000 ms old |
| Room.GameRoom.IsPlayerKicked | server/game/GameRoom.js:180-183 | the answer is true exactly for an entry at most 60000 ms old, after the sweep |
| Room.GameRoom.RemovePlayer | server/game/GameRoom.js:185-201 | an absent id changes nothing; a present one is removed with the others kept in order, recorded as kicked at `now`, and `players[0]` becomes host when the host left |
| Room.GameRoom.Kick | server/game/GameRoom.js:189 | the kick time is recorded and no seat changes |
| Room.GameRoom.DropSeat | server/game/GameRoom.js:186-197 | the seat leaves the roster and the host is reassigned when needed |
| Room.GameRoom.Cut | server/game/GameRoom.js:188 | the list without the seat, the others in order |
| Room.GameRoom.StartGame | server/game/GameRoom.js:214-221 | every player is dealt two distinct types, the counters reset, and the first question opens with a full timer (or the game ends on an empty bank) |
| Room.GameRoom.Restart | server/game/GameRoom.js:216-220 | the counters reset and `nextQuestion` runs from the first question |
| Room.GameRoom.EndGame | server/game/GameRoom.js:223-231 | RESULTS, the timer stopped, kicks cleared, display counter 0, roster unchanged, and the standings returned |
| Room.GameRoom.Finish | server/game/GameRoom.js:224-230 | the fields `endGame` sets, with the roster unchanged |
| Room.GameRoom.CalculateResults | server/game/GameRoom.js:390-399 | the standings of the current roster |
| Room.GameRoom.AddMessage | server/game/GameRoom.js:233-239 | the history becomes `Appended` of the old one and stays within the cap |
| Room.GameRoom.StartCountdown | server/game/GameRoom.js:241-257 | a no-op while the countdown runs; otherwise 10 s when the clock was at 0, COUNTDOWN, unpaused and running |
| Room.GameRoom.CountdownTick | server/game/GameRoom.js:259-277 | a paused tick changes nothing; otherwise one second is taken, and on reaching 0 the interval stops and the game starts once |
| Room.GameRoom.CountdownExpires | server/game/GameRoom.js:271-275 | the interval is cleared and `startGame` runs |
| Room.GameRoom.ToggleCountdownPause | server/game/GameRoom.js:279-284 | the lobby pause flips only during the countdown |
| Room.GameRoom.CancelCountdown | server/game/GameRoom.js:286-299 | with the handle unset nothing changes |
| Room.GameRoom.CheckAnswers | server/game/GameRoom.js:301-324 | the roster becomes `Graded` of the old one and no room field changes |
| Room.GameRoom.GradeEach | server/game/GameRoom.js:302-320 | the `forEach` grades every seat once, in order |
| Room.GameRoom.NextQuestion | server/game/GameRoom.js:326-372 | past the bank's end the game ends; otherwise the current question opens with a 15 s timer and the display counter goes up by one |
| Room.GameRoom.AssignAbilities | server/game/GameRoom.js:374-388 | the roster becomes `DealtAll` of the old one |
| Room.GameRoom.DealEach | server/game/GameRoom.js:375-386 | the `forEach` deals to every seat once |
| Room.GameRoom.QuestionTick | server/game/GameRoom.js:401-420 | a paused tick changes nothing; otherwise one second is taken, and at 0 the timer stops, the question on display is graded and one settle is scheduled |
| Room.GameRoom.TimeUp | server/game/GameRoom.js:414-418 | the timer stops and `checkAnswers` grades the question on display |
| Room.GameRoom.StopTimer | server/game/GameRoom.js:414-416 | the clock reads 0, the interval is cleared and a settle is pending |
| Room.GameRoom.SettleDone | server/game/GameRoom.js:359-366 | the index moves on by one, then the next question opens or the game ends |
| Room.GameRoom.PauseGame | server/game/GameRoom.js:422-425 | the pause flag flips in every phase |
| Room.GameRoom.HandleAnswer | server/game/GameRoom.js:427-437 | the answer is recorded only in the QUESTION phase and only for a seated id |
| Room.GameRoom.RecordAnswer | server/game/GameRoom.js:431-434 | only that seat's answer to the question changes |
| Room.GameRoom.CurrentQuestion | server/game/GameRoom.js:456 | there is a current question exactly while the index is inside the bank, and it is the question at that index |
| Room.GameRoom.UseAbility | server/game/GameRoom.js:439-508 | the roster and outcome are `Use` of the old roster, warned outside an open unpaused question |
| Room.GameRoom.Invoke | server/game/GameRoom.js:440-453 | the lookups and the throws of `useAbility` |
| Room.GameRoom.SpendAndApply | server/game/GameRoom.js:453-507 | the spend, then the effect on the spent roster |
| Room.GameRoom.Spend | server/game/GameRoom.js:453 | the caller's inventory loses the first instance of the type |
| Room.GameRoom.ApplyEffect | server/game/GameRoom.js:456-507 | the `switch` on the ability type, as `Effect` specifies |
| Room.GameRoom.StealFrom | server/game/GameRoom.js:461-473 | the scores move as `Stolen` specifies |
| Room.GameRoom.PlantWrongAnswer | server/game/GameRoom.js:480-491 | the target's answer is replaced as `Tricked` specifies, or the call fails with no wrong option |
| Room.GameRoom.RestorePlayer | server/game/GameRoom.js:518-539 | an unknown id changes nothing and gives null; a seated one gets the socket id and is marked connected, and nothing else changes |
| Room.GameRoom.Reattach | server/game/GameRoom.js:521-522 | only that seat's socket id and connection flag change |
| Socket.Seated | server/game/GameRoom.js:159-163 | the roster after a join: the old seats followed by the newcomer, who is host exactly when the room was empty |
| Socket.Stamped | server/sockets/gameSocket.js:136-141 | the stored message carries the socket id, the server time and the player's nickname, or the anonymous name when that is empty |
| Socket.SetupSocket | server/sockets/gameSocket.js:7-63 | without a token nothing happens; a rejected token gives `invalidateToken` and no player; a kicked id gives `isKicked` and no handlers; otherwise the seated player is re-attached and becomes the connection's player |
| Socket.Reconnect | server/sockets/gameSocket.js:23-58 | the snapshot carries the restored record, the question only in QUESTION, and the standings only in RESULTS |
| Socket.Connection.constructor | server/sockets/gameSocket.js:7-8 | a new connection has no player |
| Socket.Connection.Resume | server/sockets/gameSocket.js:16-23 | the kick check sweeps the list; a kicked id gets no player; any other is restored |
| Socket.Connection.Restore | server/sockets/gameSocket.js:23-24 | the connection's player becomes the restored record, or stays null |
| Socket.Connection.Join | server/sockets/gameSocket.js:65-86 | with 10 or more seated the room is full and nothing changes; otherwise exactly one new player is appended, becomes the connection's player, and the reply's host flag is that player's |
| Socket.Connection.StartCountdown | server/sockets/gameSocket.js:88-98 | changes nothing unless the connection's player is host |
| Socket.Connection.ToggleCountdownPause | server/sockets/gameSocket.js:100-104 | the lobby pause flips only for the host during the countdown |
| Socket.Connection.CancelCountdown | server/sockets/gameSocket.js:106-110 | changes nothing, for host and non-host alike |
| Socket.Connection.EndGame | server/sockets/gameSocket.js:112-116 | changes nothing unless the connection's player is host, and then ends the game |
| Socket.Connection.PauseGame | server/sockets/gameSocket.js:118-122 | the pause flag flips exactly for the host |
| Socket.Connection.KickPlayer | server/sockets/gameSocket.js:124-126 | from any connection, the roster becomes the old one without the id, in order, with the first remaining player made host when the host left; the id is recorded as kicked when it was seated |
| Socket.Connection.Answer | server/sockets/gameSocket.js:128-132 | ignored without a player; otherwise the room records it for the player's id |
| Socket.Connection.SendMessage | server/sockets/gameSocket.js:134-143 | ignored without a player; otherwise the stamped message is appended to the capped history |
| Socket.Connection.RequestChatHistory | server/sockets/gameSocket.js:145-147 | the room's history, never longer than 100 |
| Socket.Connection.UseAbility | server/sockets/gameSocket.js:149-154 | ignored without a player; otherwise the room's `Use` outcome, acknowledged only when the room did not throw |
| Socket.Connection.Disconnect | server/sockets/gameSocket.js:156-161 | only the connection flag of the connection's own record is cleared; no seat is added, removed or otherwise changed |

## Left out

- Broadcasts (`io.emit`, `io.to(...).emit`, `notifyPlayers`, `sendSystemMessage` and the 7-second clear) are not modelled. They only send data out and change no room state.
- Real timers and scheduling are not modelled. Intervals and timeouts are the explicit step methods above. A step is enabled only while its interval is installed, or, for `SettleDone`, while a settle is pending.
- Token signing and verification, and uuid generation, are oracles. They appear as the `Credential` and `freshId` parameters.
- The question text, answer text, ability descriptions and quiz title literals are left out. Questions keep their id, their answer ids and the correct id. The bank is a constructor parameter with a well-formedness predicate.
- The `io` handle and the `lobbyTimer` and `timerCallback` fields are left out. Nothing reads `lobbyTimer`, and the callback is always the grading step.
- JavaScript coercions of malformed client payloads are left out. A missing or non-string id, a question id that is not a number, and extra fields spread into a chat message are examples. Payload fields are typed parameters, and a chat message keeps only its text.
- The probability of each random outcome is not modelled. Only the value each draw produces is.
- Concurrency is not modelled. Every handler and tick runs to completion, one at a time, as on the Node event loop.
- Process-level exception handling is not modelled. A `Threw` outcome records that the room threw; what happens to the process afterwards is not modelled.
- Room.GameRoom.NextQuestion: the standings that the nested `endGame()` broadcasts are not returned.
- Room.GameRoom.SettleDone: the standings that the nested `endGame()` broadcasts are not returned.
- Socket.Connection.Join: the reply's signed token is not modelled. Neither is the `catch` branch, because nothing in the model throws there.
- Socket.SetupSocket: the snapshot holds the record, the phase, the current question and the standings. The other fields, which are copied from the room unchanged, are not included. The full snapshot contract is stated on `Socket.Reconnect`.
- Delivery of the private `useAbility` sends is not modelled. The outcome records what is sent, not whether the addressed socket or channel exists.
- Socket.Connection.UseAbility: a thrown error in the source escapes the handler. The model reports it as the `Threw` outcome with no acknowledgement.

=== FILE: player.dfy ===
/** The mutable player record (server/game/Player.js). The room and the
    connection handlers update its fields in place. */
module Players {
  import opened Quiz

  class Player {
    const id: Id
    var socketId: Option<string>
    const nickname: string
    const avatarUrl: string
    var score: int
    var isHost: bool
    /** Keyed by question id. */
    var answers: map<int, Answer>
    var abilities: seq<AbilityType>
    var connected: bool

    /** A new player: no score, not host, no answers, no abilities,
        connected, with no connection id attached yet. */
    constructor(id: Id, nickname: string, avatarUrl: string)
      ensures this.id == id && this.nickname == nickname && this.avatarUrl == avatarUrl
      ensures score == 0
      ensures !isHost
      ensures answers == map[] && abilities == []
      ensures connected && socketId == None
    {
      this.id := id;
      socketId := None;
      this.nickname := nickname;
      this.avatarUrl := avatarUrl;
      score := 0;
      isHost := false;
      answers := map[];
      abilities := [];
      connected := true;
    }

    /** The record's current value. */
    function State(): (s: PlayerState)
      reads this
      ensures s.id == id
    {
      PlayerState(id, socketId, nickname, avatarUrl, score, isHost, answers, abilities, connected)
    }
  }

  /** The values of a list of records, position by position. */
  function States(ps: seq<Player>): (r: seq<PlayerState>)
    reads ps
    ensures |r| == |ps|
    ensures forall i :: 0 <= i < |ps| ==> r[i] == ps[i].State()
  {
    seq(|ps|, i requires 0 <= i < |ps| reads ps => ps[i].State())
  }
}

=== FILE: quiz.dfy ===
/** Values shared by the whole model of the QuizTime game room: phases,
    questions, recorded answers, ability types, chat messages, the value
    view of a player record, and the random draws the room consumes. */
module Quiz {

  /** Player identity (a UUID string issued on join). */
  type Id = string

  datatype Option<+T> = None | Some(value: T)

  /** The room's `gameState`. */
  datatype Phase = Lobby | Countdown | QuestionOpen | Results

  /** The four entries of the room's ability catalogue; `Right` is the
      ability the source calls 'right' (show the correct answer). */
  datatype AbilityType = Right | Trick | Help | Steal

  /** The catalogue in the order the room lists it. */
  const Catalogue: seq<AbilityType> := [Right, Trick, Help, Steal]

  /** Capacity of the room: `join` refuses once this many players are in. */
  const MaxPlayers: nat := 10
  /** Chat history holds at most this many messages. */
  const HistoryCap: nat := 100
  /** A kick entry stays in force for this many milliseconds. */
  const KickTtl: int := 60000
  /** Length of the lobby countdown, in ticks (seconds). */
  const CountdownSeconds: int := 10
  /** Length of the per-question timer, in ticks (seconds). */
  const QuestionSeconds: int := 15
  /** Points for a correct answer. */
  const CorrectPoints: int := 100
  /** Points moved by `steal`. */
  const StealPoints: int := 50
  /** A player may be granted an ability only while holding fewer than this. */
  const AbilityCap: nat := 5
  /** A grant happens only when the draw is strictly above this. */
  const GrantThreshold: real := 0.7

  /** What a player recorded for one question. */
  datatype Answer = Answer(answerId: int, timestamp: int)

  /** A question, reduced to its identifiers: the option texts and images
      are presentation only. */
  datatype Question = Question(id: int, answerIds: seq<int>, correctAnswerId: int)

  /** The ids in `ids` other than `x`, in order. */
  function Except(ids: seq<int>, x: int): (r: seq<int>)
    ensures forall a :: a in r <==> a in ids && a != x
    ensures |r| <= |ids|
  {
    if ids == [] then []
    else
      var rest := Except(ids[1..], x);
      assert ids == [ids[0]] + ids[1..];
      if ids[0] == x then rest else [ids[0]] + rest
  }

  /** `question.answers.filter(a => a.id !== question.correctAnswerId)` */
  function WrongAnswers(q: Question): (r: seq<int>)
    ensures forall a :: a in r <==> a in q.answerIds && a != q.correctAnswerId
  {
    Except(q.answerIds, q.correctAnswerId)
  }

  /** A well-formed question: distinct answer ids, the correct one among
      them, and at least one wrong answer for `trick` to pick from. */
  ghost predicate WellFormedQuestion(q: Question) {
    && (forall i, j :: 0 <= i < j < |q.answerIds| ==> q.answerIds[i] != q.answerIds[j])
    && q.correctAnswerId in q.answerIds
    && exists a :: a in q.answerIds && a != q.correctAnswerId
  }

  ghost predicate WellFormedBank(qs: seq<Question>) {
    forall i :: 0 <= i < |qs| ==> WellFormedQuestion(qs[i])
  }

  /** A stored chat message. `playerId` is the sender's connection id. */
  datatype Message = Message(text: string, playerId: string, nickname: string, timestamp: int)

  /** The value of one `Player` record at one moment. */
  datatype PlayerState = PlayerState(
    id: Id,
    socketId: Option<string>,
    nickname: string,
    avatarUrl: string,
    score: int,
    isHost: bool,
    answers: map<int, Answer>,
    abilities: seq<AbilityType>,
    connected: bool)

  /** One result of `Math.random()`. */
  type Random = r: real | 0.0 <= r < 1.0

  /** `Math.floor(r * n)`: a uniformly drawn index below `n`. */
  function RandomIndex(r: Random, n: nat): (k: nat)
    requires n > 0
    ensures k < n
  {
    var f := r * (n as real);
    assert f < n as real;
    f.Floor
  }

  /** The two draws a player consumes in one pass of a per-player loop:
      `first` decides (or indexes) first, `second` indexes next. */
  datatype Draw = Draw(first: Random, second: Random)

  predicate NoDuplicates<T(==)>(s: seq<T>) {
    forall i, j :: 0 <= i < j < |s| ==> s[i] != s[j]
  }
}

=== FILE: room.dfy ===
/** The game room (server/game/GameRoom.js): the single owner of the
    roster, the phase, both timers, the kick list and the chat history.

    Timers are explicit steps: `CountdownTick` and `QuestionTick` are one
    firing of the installed 1-second intervals, `SettleDone` is the 3-second
    timeout scheduled after grading. Clock readings arrive as `now`
    (milliseconds) and every `Math.random()` result as a `Random`. */
module Room {
  import opened Quiz
  import opened Rules
  import opened AbilityFacts
  import opened Players
  import Standings

  /** The inner loop of `assignAbilities`: two draws against a copy of the
      catalogue, each taken type spliced out of the copy. */
  method DealHand(d: Draw) returns (hand: seq<AbilityType>)
    ensures hand == Dealt(d)
    ensures |hand| == 2 && hand[0] != hand[1]
  {
    var rs := [d.first, d.second];
    var avail := Catalogue;
    hand := [];
    var i := 0;
    while i < 2
      invariant 0 <= i <= 2
      invariant hand + DealFrom(avail, rs[i..]) == DealFrom(Catalogue, rs)
    {
      if |avail| > 0 {
        var k := RandomIndex(rs[i], |avail|);
        assert rs[i..] == [rs[i]] + rs[i + 1..];
        hand := hand + [avail[k]];
        avail := avail[..k] + avail[k + 1..];
      } else {
        assert rs[i..] == [rs[i]] + rs[i + 1..];
      }
      i := i + 1;
    }
    assert rs[2..] == [];
  }

  /** `abilities.findIndex(a => a.type === kind)` */
  method FindAbility(s: seq<AbilityType>, kind: AbilityType) returns (a: int)
    ensures -1 <= a < |s|
    ensures a < 0 <==> kind !in s
    ensures a >= 0 ==> s[a] == kind && forall j :: 0 <= j < a ==> s[j] != kind
  {
    a := 0;
    while a < |s|
      invariant 0 <= a <= |s|
      invariant forall j :: 0 <= j < a ==> s[j] != kind
    {
      if s[a] == kind { return; }
      a := a + 1;
    }
    a := -1;
  }

  /** One player's part of `checkAnswers(q)`: a correct answer earns
      `CorrectPoints` and, with a lucky draw and room in the inventory, one
      type the player does not hold yet. */
  method GradeRecord(p: Player, q: Question, d: Draw)
    modifies p
    ensures p.State() == GradeOne(old(p.State()), q, d)
  {
    if q.id in p.answers && p.answers[q.id].answerId == q.correctAnswerId {
      p.score := p.score + CorrectPoints;
      if d.first > GrantThreshold && |p.abilities| < AbilityCap {
        var avail := Available(p.abilities);
        if |avail| > 0 {
          p.abilities := p.abilities + [avail[RandomIndex(d.second, |avail|)]];
        }
      }
    }
  }

  /** One player's part of `assignAbilities()`: the inventory is replaced
      by a fresh hand of two distinct types. */
  method DealRecord(p: Player, d: Draw)
    modifies p
    ensures p.State() == old(p.State()).(abilities := Dealt(d))
  {
    var hand := DealHand(d);
    p.abilities := hand;
  }

  class GameRoom {
    var gameState: Phase
    var isPaused: bool
    /** In join order. */
    var players: seq<Player>
    /** Identity to kick time (ms). */
    var kickedPlayers: map<Id, int>
    var hostId: Option<Id>
    var currentQuestionIndex: nat
    /** `timerInterval` is installed and not cleared. */
    var timerRunning: bool
    /** The question the running timer's callback will grade. */
    var timerQuestion: nat
    var remainingTime: int
    /** `countdownInterval` is installed. */
    var countdownRunning: bool
    var countdownTime: int
    var isLobbyPaused: bool
    /** `countdownTimer`, the handle `cancelCountdown` tests; no code
        assigns it, so it stays unset. */
    var countdownTimer: bool
    const quizName: string
    const questions: seq<Question>
    var messages: seq<Message>
    const totalQuestions: nat
    var displayedQuestionNumber: nat
    /** Settle timeouts scheduled and not yet fired (never cancelled). */
    var pendingSettles: nat

    /** The players' records as values, in seat order. */
    function View(): seq<PlayerState>
      reads this`players, players
    {
      States(players)
    }

    /** The roster part of the invariant. */
    ghost predicate RosterValid()
      reads this`players, this`hostId, players
    {
      RosterOk(View(), hostId)
    }

    /** The chat cap, and the ranges of both clocks, which are positive
        while their interval is installed. */
    ghost predicate ClocksValid()
      reads this`messages, this`countdownTime, this`countdownRunning, this`remainingTime, this`timerRunning
    {
      && |messages| <= HistoryCap
      && 0 <= countdownTime <= CountdownSeconds && (countdownRunning ==> countdownTime > 0)
      && 0 <= remainingTime <= QuestionSeconds && (timerRunning ==> remainingTime > 0)
    }

    /** A running question timer grades the question on display, and the
        question phase always has a current question. */
    ghost predicate TimerLinked()
      reads this`timerRunning, this`timerQuestion, this`currentQuestionIndex, this`gameState
    {
      && (timerRunning ==> timerQuestion == currentQuestionIndex)
      && (timerRunning || gameState == QuestionOpen ==> currentQuestionIndex < |questions|)
    }

    /** What no operation changes: a well-formed bank, its size, and the
        unset `countdownTimer` handle. */
    ghost predicate Fixed()
      reads this`countdownTimer
    {
      WellFormedBank(questions) && totalQuestions == |questions| && !countdownTimer
    }

    /** The room invariant. Each operation requires and ensures only the
        parts it reads or writes; its `modifies` clause keeps the others. */
    ghost predicate Valid()
      reads this, players
    {
      Fixed() && RosterValid() && ClocksValid() && TimerLinked()
    }

    /** The fields `endGame()` sets. */
    ghost predicate Ended()
      reads this`gameState, this`timerRunning, this`kickedPlayers, this`displayedQuestionNumber
    {
      gameState == Results && !timerRunning && kickedPlayers == map[] && displayedQuestionNumber == 0
    }

    /** Question `i` on display, with a full timer that will grade it. */
    ghost predicate Asking(i: nat)
      reads this`gameState, this`timerRunning, this`timerQuestion, this`remainingTime
    {
      gameState == QuestionOpen && timerRunning && timerQuestion == i && remainingTime == QuestionSeconds
    }

    /** Seat `i` holds a record no other seat holds. */
    lemma Apart(i: nat)
      requires UniqueIds(View()) && i < |players|
      ensures forall j :: 0 <= j < |players| && j != i ==> players[j] != players[i]
    {
      forall j | 0 <= j < |players| && j != i ensures players[j] != players[i] {
        assert View()[i].id != View()[j].id;
      }
    }

    /** A fresh room in the lobby, over a well-formed question bank. */
    constructor(quizName: string, questions: seq<Question>)
      requires WellFormedBank(questions)
      ensures Valid() && players == []
      ensures this.quizName == quizName && this.questions == questions && totalQuestions == |questions|
      ensures gameState == Lobby && !isPaused && kickedPlayers == map[] && hostId == None
      ensures currentQuestionIndex == 0 && !timerRunning && remainingTime == 0
      ensures !countdownRunning && countdownTime == 0 && !isLobbyPaused
      ensures messages == [] && displayedQuestionNumber == 0 && pendingSettles == 0
    {
      gameState := Lobby;
      isPaused := false;
      players := [];
      kickedPlayers := map[];
      hostId := None;
      currentQuestionIndex := 0;
      timerRunning := false;
      timerQuestion := 0;
      remainingTime := 0;
      countdownRunning := false;
      countdownTime := 0;
      isLobbyPaused := false;
      countdownTimer := false;
      this.quizName := quizName;
      this.questions := questions;
      messages := [];
      totalQuestions := |questions|;
      displayedQuestionNumber := 0;
      pendingSettles := 0;
    }

    /** With the invariant, exactly one player is host in a non-empty
        room, and none in an empty one. */
    lemma OneHost()
      requires RosterValid()
      ensures CountHosts(View()) == if |players| > 0 then 1 else 0
    {
      HostCount(View(), hostId);
    }

    /** `players.find(p => p.id === id)` as a position, -1 if absent. */
    method Find(id: Id) returns (k: int)
      ensures -1 <= k < |players|
      ensures k >= 0 ==> players[k].id == id && forall j :: 0 <= j < k ==> players[j].id != id
      ensures k < 0 ==> forall j :: 0 <= j < |players| ==> players[j].id != id
      ensures k == IndexOf(View(), id)
    {
      k := 0;
      while k < |players|
        invariant 0 <= k <= |players|
        invariant forall j :: 0 <= j < k ==> players[j].id != id
      {
        if players[k].id == id {
          assert k == IndexOf(View(), id);
          return;
        }
        k := k + 1;
      }
      k := -1;
    }

    /** `setHost(id)` */
    method SetHost(id: Id)
      requires UniqueIds(View())
      modifies this`hostId, players
      ensures View() == WithHost(old(View()), id) && hostId == Some(id)
    {
      ghost var before := View();
      hostId := Some(id);
      var i := 0;
      while i < |players|
        invariant 0 <= i <= |players| && hostId == Some(id) && UniqueIds(View())
        invariant forall j :: 0 <= j < |players| ==>
                    players[j].State() == if j < i then before[j].(isHost := before[j].id == id) else before[j]
      {
        Apart(i);
        players[i].isHost := players[i].id == id;
        i := i + 1;
      }
      assert View() == WithHost(before, id);
    }

    /** `addPlayer(p)`: append; the player that makes the roster one long
        becomes host. */
    method AddPlayer(p: Player) returns (added: Player)
      requires RosterValid()
      requires !HasId(View(), p.id)
      requires !p.isHost && NoDuplicates(p.abilities)
      modifies this`players, this`hostId, players, p
      ensures RosterValid()
      ensures added == p && players == old(players) + [p]
      ensures old(|players|) == 0 ==> View() == [old(p.State()).(isHost := true)] && hostId == Some(p.id)
      ensures old(|players|) > 0 ==> View() == old(View()) + [old(p.State())] && hostId == old(hostId)
    {
      ghost var before := View();
      ghost var ps := p.State();
      JoinRoster(before, hostId, ps);
      Join(p);
      if |players| == 1 {
        SetHost(p.id);
        assert View() == [ps.(isHost := true)] by {
          assert View()[0] == WithHost([ps], p.id)[0];
        }
      }
      added := p;
    }

    /** The push of `addPlayer`. */
    method Join(p: Player)
      requires !HasId(View(), p.id)
      modifies this`players
      ensures players == old(players) + [p]
      ensures View() == old(View()) + [p.State()]
    {
      ghost var before := View();
      forall i | 0 <= i < |players| ensures players[i] != p {
        assert before[i].id == players[i].id;
      }
      players := players + [p];
      assert View() == before + [p.State()] by {
        forall j | 0 <= j < |players| - 1 ensures View()[j] == before[j] {
          assert players[j] == old(players)[j];
        }
      }
    }

    /** `cleanKickedPlayers()` at time `now`: delete every entry more than
        `KickTtl` ms old. */
    method CleanKickedPlayers(now: int)
      modifies this`kickedPlayers
      ensures kickedPlayers == Swept(old(kickedPlayers), now)
    {
      var pending := kickedPlayers.Keys;
      while pending != {}
        invariant pending <= old(kickedPlayers).Keys
        invariant kickedPlayers.Keys == set id | id in old(kickedPlayers) && (id in pending || now - old(kickedPlayers)[id] <= KickTtl)
        invariant forall id :: id in kickedPlayers ==> kickedPlayers[id] == old(kickedPlayers)[id]
        decreases pending
      {
        var id :| id in pending;
        if now - kickedPlayers[id] > KickTtl {
          kickedPlayers := kickedPlayers - {id};
        }
        pending := pending - {id};
      }
      assert kickedPlayers.Keys == Swept(old(kickedPlayers), now).Keys;
    }

    /** `isPlayerKicked(id)` at time `now`: sweep, then look up. */
    method IsPlayerKicked(id: Id, now: int) returns (kicked: bool)
      modifies this`kickedPlayers
      ensures kickedPlayers == Swept(old(kickedPlayers), now)
      ensures kicked <==> id in old(kickedPlayers) && now - old(kickedPlayers)[id] <= KickTtl
    {
      CleanKickedPlayers(now);
      kicked := id in kickedPlayers;
    }

    /** `removePlayer(id)` at time `now`: drop the player, record the kick
        time, and hand the host role to the first remaining player when the
        host left. An absent id changes nothing. */
    method RemovePlayer(id: Id, now: int) returns (removed: Player?)
      requires RosterValid()
      modifies this`players, this`kickedPlayers, this`hostId, players
      ensures RosterValid()
      ensures IndexOf(old(View()), id) < 0 ==>
                removed == null && players == old(players) && View() == old(View())
                && hostId == old(hostId) && kickedPlayers == old(kickedPlayers)
      ensures var k := IndexOf(old(View()), id);
              var rest := Without(old(View()), id);
              var reassign := old(hostId) == Some(id) && |rest| > 0;
        k >= 0 ==>
          && removed == old(players)[k] && |players| == old(|players|) - 1
          && View() == (if reassign then WithHost(rest, rest[0].id) else rest)
          && hostId == (if reassign then Some(rest[0].id) else old(hostId))
          && kickedPlayers == old(kickedPlayers)[id := now]
    {
      var k := Find(id);
      if k < 0 {
        removed := null;
        return;
      }
      removed := players[k];
      DropSeat(k);
      Kick(id, now);
    }

    /** `kickedPlayers.set(id, now)` */
    method Kick(id: Id, now: int)
      modifies this`kickedPlayers
      ensures kickedPlayers == old(kickedPlayers)[id := now]
      ensures View() == old(View())
    {
      kickedPlayers := kickedPlayers[id := now];
    }

    /** The roster part of `removePlayer`: cut seat `k` out and, when it
        held the host, hand the role to the first remaining player. */
    method DropSeat(k: nat)
      requires RosterValid() && k < |players|
      modifies this`players, this`hostId, players
      ensures RosterValid()
      ensures |players| == old(|players|) - 1
      ensures var rest := Without(old(View()), old(players[k].id));
              var reassign := old(hostId) == Some(old(players[k].id)) && |rest| > 0;
          && View() == (if reassign then WithHost(rest, rest[0].id) else rest)
          && hostId == if reassign then Some(rest[0].id) else old(hostId)
    {
      ghost var before := View();
      var id := players[k].id;
      WithoutAt(before, k);
      LeaveRoster(before, hostId, k);
      Cut(k);
      if hostId == Some(id) && |players| > 0 {
        assert View()[0].id == players[0].id;
        SetHost(players[0].id);
      }
    }

    /** The filter of `removePlayer`, at the one seat holding the id. */
    method Cut(k: nat)
      requires k < |players|
      modifies this`players
      ensures players == old(players[..k] + players[k + 1..])
      ensures View() == old(View()[..k] + View()[k + 1..])
    {
      ghost var before := View();
      players := players[..k] + players[k + 1..];
      assert View() == before[..k] + before[k + 1..] by {
        forall j | 0 <= j < |players|
          ensures View()[j] == (before[..k] + before[k + 1..])[j]
        {
          if j < k { assert players[j] == old(players)[j]; }
          else { assert players[j] == old(players)[j + 1]; }
        }
      }
    }

    /** The fields `nextQuestion()` leaves, given the display counter,
        kick list, clock and graded question it started from: past the
        end of the bank the game has ended and the clock is untouched;
        otherwise the current question is on display with a full timer
        and the counter has moved on by one. */
    ghost predicate Advanced(displayed: nat, kicked: map<Id, int>, remaining: int, graded: nat)
      reads this`gameState, this`timerRunning, this`kickedPlayers, this`displayedQuestionNumber,
            this`remainingTime, this`timerQuestion, this`currentQuestionIndex
    {
      if currentQuestionIndex >= |questions| then
        Ended() && remainingTime == remaining && timerQuestion == graded
      else
        Asking(currentQuestionIndex) && displayedQuestionNumber == displayed + 1 && kickedPlayers == kicked
    }

    /** `startGame()`: deal two distinct abilities to every player, reset
        the question counters and open the first question. */
    method StartGame(draws: seq<Draw>)
      requires RosterValid() && ClocksValid() && |draws| == |players|
      modifies players, this`currentQuestionIndex, this`displayedQuestionNumber, this`gameState, this`timerRunning,
               this`kickedPlayers, this`remainingTime, this`timerQuestion
      ensures RosterValid() && ClocksValid() && TimerLinked()
      ensures View() == DealtAll(old(View()), draws)
      ensures currentQuestionIndex == 0
      ensures Advanced(0, old(kickedPlayers), old(remainingTime), old(timerQuestion))
    {
      AssignAbilities(draws);
      Restart();
    }

    /** The field updates of `startGame()`: counters back to the first
        question, which is then opened. */
    method Restart()
      requires ClocksValid()
      modifies this`currentQuestionIndex, this`displayedQuestionNumber, this`gameState, this`timerRunning,
               this`kickedPlayers, this`remainingTime, this`timerQuestion
      ensures ClocksValid() && TimerLinked()
      ensures View() == old(View())
      ensures currentQuestionIndex == 0
      ensures Advanced(0, old(kickedPlayers), old(remainingTime), old(timerQuestion))
    {
      gameState := QuestionOpen;
      currentQuestionIndex := 0;
      displayedQuestionNumber := 0;
      NextQuestion();
    }

    /** `endGame()`: results phase, question timer cleared, kick list
        emptied, display counter reset; returns the broadcast standings. */
    method EndGame() returns (results: Option<Standings.GameResults>)
      requires ClocksValid()
      modifies this`gameState, this`timerRunning, this`kickedPlayers, this`displayedQuestionNumber
      ensures ClocksValid() && TimerLinked() && Ended()
      ensures View() == old(View())
      ensures results == Standings.CalculateResults(View())
    {
      Finish();
      results := CalculateResults();
    }

    /** The field updates of `endGame()`. */
    method Finish()
      requires ClocksValid()
      modifies this`gameState, this`timerRunning, this`kickedPlayers, this`displayedQuestionNumber
      ensures ClocksValid() && TimerLinked() && Ended()
      ensures View() == old(View())
    {
      gameState := Results;
      timerRunning := false;
      kickedPlayers := map[];
      displayedQuestionNumber := 0;
    }

    /** `calculateResults()` on the current roster. */
    method CalculateResults() returns (results: Option<Standings.GameResults>)
      ensures results == Standings.CalculateResults(View())
    {
      results := Standings.CalculateResults(View());
    }

    /** `addMessage(m)`: push, then shift once if over the cap. */
    method AddMessage(m: Message)
      requires ClocksValid()
      modifies this`messages
      ensures ClocksValid()
      ensures messages == Appended(old(messages), m)
    {
      messages := messages + [m];
      if |messages| > HistoryCap {
        messages := messages[1..];
      }
    }

    /** `startCountdown()`: ignored while the countdown interval is
        installed; otherwise restart from `CountdownSeconds` if it had run
        out, enter the countdown phase unpaused and install the interval.
        No phase is checked. */
    method StartCountdown()
      requires ClocksValid() && TimerLinked()
      modifies this`countdownTime, this`gameState, this`isLobbyPaused, this`countdownRunning
      ensures ClocksValid() && TimerLinked()
      ensures old(countdownRunning) ==> unchanged(this`countdownTime, this`gameState, this`isLobbyPaused, this`countdownRunning)
      ensures !old(countdownRunning) ==>
                && countdownTime == (if old(countdownTime) <= 0 then CountdownSeconds else old(countdownTime))
                && gameState == Countdown && !isLobbyPaused && countdownRunning
    {
      if countdownRunning {
        return;
      }
      if countdownTime <= 0 {
        countdownTime := CountdownSeconds;
      }
      gameState := Countdown;
      isLobbyPaused := false;
      countdownRunning := true;
    }

    /** One firing of the countdown interval: nothing while the lobby is
        paused; otherwise count down, and on reaching zero clear the
        interval and start the game. */
    method CountdownTick(draws: seq<Draw>)
      requires RosterValid() && ClocksValid() && TimerLinked()
      requires countdownRunning && |draws| == |players|
      modifies players, this`countdownTime, this`countdownRunning, this`currentQuestionIndex,
               this`displayedQuestionNumber, this`gameState, this`timerRunning, this`kickedPlayers,
               this`remainingTime, this`timerQuestion
      ensures RosterValid() && ClocksValid() && TimerLinked()
      ensures old(isLobbyPaused) ==> unchanged(this) && View() == old(View())
      ensures !old(isLobbyPaused) && old(countdownTime) > 1 ==>
                && countdownTime == old(countdownTime) - 1 && View() == old(View())
                && unchanged(this`countdownRunning, this`currentQuestionIndex, this`displayedQuestionNumber,
                             this`gameState, this`timerRunning, this`kickedPlayers, this`remainingTime, this`timerQuestion)
      ensures !old(isLobbyPaused) && old(countdownTime) <= 1 ==>
                && countdownTime == 0 && !countdownRunning && currentQuestionIndex == 0
                && View() == DealtAll(old(View()), draws)
                && Advanced(0, old(kickedPlayers), old(remainingTime), old(timerQuestion))
    {
      if isLobbyPaused {
        return;
      }
      if countdownTime <= 1 {
        CountdownExpires(draws);
      } else {
        countdownTime := countdownTime - 1;
      }
    }

    /** The last countdown tick: the clock reaches zero, the interval is
        cleared and the game starts. */
    method CountdownExpires(draws: seq<Draw>)
      requires RosterValid() && ClocksValid() && TimerLinked()
      requires countdownRunning && countdownTime <= 1 && |draws| == |players|
      modifies players, this`countdownTime, this`countdownRunning, this`currentQuestionIndex,
               this`displayedQuestionNumber, this`gameState, this`timerRunning, this`kickedPlayers,
               this`remainingTime, this`timerQuestion
      ensures RosterValid() && ClocksValid() && TimerLinked()
      ensures countdownTime == 0 && !countdownRunning && currentQuestionIndex == 0
      ensures View() == DealtAll(old(View()), draws)
      ensures Advanced(0, old(kickedPlayers), old(remainingTime), old(timerQuestion))
    {
      countdownTime := countdownTime - 1;
      countdownRunning := false;
      StartGame(draws);
    }

    /** `toggleCountdownPause()`: only in the countdown phase. */
    method ToggleCountdownPause()
      modifies this`isLobbyPaused
      ensures isLobbyPaused == if old(gameState) == Countdown then !old(isLobbyPaused) else old(isLobbyPaused)
    {
      if gameState != Countdown {
        return;
      }
      isLobbyPaused := !isLobbyPaused;
    }

    /** `cancelCountdown()`: it tests `countdownTimer`, which is never
        set (the countdown handle lives in `countdownInterval`), so in a
        valid room it does nothing and the countdown keeps running. */
    method CancelCountdown()
      modifies this`countdownTimer, this`gameState, this`countdownTime, this`isLobbyPaused
      ensures !countdownTimer
      ensures !old(countdownTimer) ==> unchanged(this`gameState, this`countdownTime, this`isLobbyPaused)
      ensures old(countdownTimer) ==> gameState == Lobby && countdownTime == 0 && !isLobbyPaused
    {
      if !countdownTimer {
        return;
      }
      countdownTimer := false;
      gameState := Lobby;
      countdownTime := 0;
      isLobbyPaused := false;
    }

    /** `checkAnswers(q)`: every player whose recorded answer to `q` is the
        correct one gains `CorrectPoints` and may be granted an ability;
        player `i` uses `draws[i]`. */
    method CheckAnswers(q: Question, draws: seq<Draw>)
      requires RosterValid() && |draws| == |players|
      modifies players
      ensures RosterValid() && unchanged(this)
      ensures View() == Graded(old(View()), q, draws)
    {
      ghost var before := View();
      GradedRoster(before, hostId, q, draws);
      GradeEach(q, draws);
    }

    /** The `forEach` of `checkAnswers`. */
    method GradeEach(q: Question, draws: seq<Draw>)
      requires UniqueIds(View()) && |draws| == |players|
      modifies players
      ensures View() == Graded(old(View()), q, draws)
    {
      ghost var before := View();
      ghost var after := Graded(before, q, draws);
      var i := 0;
      while i < |players|
        invariant 0 <= i <= |players| && UniqueIds(View())
        invariant forall j :: 0 <= j < |players| ==> players[j].State() == if j < i then after[j] else before[j]
      {
        Apart(i);
        GradeRecord(players[i], q, draws[i]);
        assert after[i] == GradeOne(before[i], q, draws[i]);
        i := i + 1;
      }
      assert View() == after;
    }

    /** `nextQuestion()`: count the display up; past the end of the bank,
        end the game; otherwise open the current question and start its
        timer, whose callback will grade that question. */
    method NextQuestion()
      requires ClocksValid()
      modifies this`displayedQuestionNumber, this`gameState, this`timerRunning, this`kickedPlayers,
               this`remainingTime, this`timerQuestion
      ensures ClocksValid() && TimerLinked()
      ensures View() == old(View())
      ensures Advanced(old(displayedQuestionNumber), old(kickedPlayers), old(remainingTime), old(timerQuestion))
    {
      displayedQuestionNumber := displayedQuestionNumber + 1;
      if currentQuestionIndex >= |questions| {
        // `endGame()`; the standings it broadcasts are not kept
        Finish();
        return;
      }
      timerRunning := false;
      gameState := QuestionOpen;
      remainingTime := QuestionSeconds;
      timerQuestion := currentQuestionIndex;
      timerRunning := true;
    }

    /** `assignAbilities()`: every player's inventory is replaced by two
        distinct types; player `i` uses `draws[i]`. */
    method AssignAbilities(draws: seq<Draw>)
      requires RosterValid() && |draws| == |players|
      modifies players
      ensures RosterValid() && unchanged(this)
      ensures View() == DealtAll(old(View()), draws)
    {
      ghost var before := View();
      DealtRoster(before, hostId, draws);
      DealEach(draws);
    }

    /** The `forEach` of `assignAbilities`. */
    method DealEach(draws: seq<Draw>)
      requires UniqueIds(View()) && |draws| == |players|
      modifies players
      ensures View() == DealtAll(old(View()), draws)
    {
      ghost var before := View();
      var i := 0;
      while i < |players|
        invariant 0 <= i <= |players| && UniqueIds(View())
        invariant forall j :: 0 <= j < |players| ==>
                    players[j].State() == if j < i then before[j].(abilities := Dealt(draws[j])) else before[j]
      {
        Apart(i);
        DealRecord(players[i], draws[i]);
        i := i + 1;
      }
      assert View() == DealtAll(before, draws);
    }

    /** One firing of the question timer: nothing while paused; otherwise
        count down, and on reaching zero clear the interval, grade the
        question the timer was started for, and schedule the settle
        timeout. */
    method QuestionTick(draws: seq<Draw>)
      requires RosterValid() && ClocksValid() && TimerLinked()
      requires timerRunning && |draws| == |players|
      modifies players, this`remainingTime, this`timerRunning, this`pendingSettles
      ensures RosterValid() && ClocksValid() && TimerLinked()
      ensures old(isPaused) ==> unchanged(this) && View() == old(View())
      ensures !old(isPaused) && old(remainingTime) > 1 ==>
                && remainingTime == old(remainingTime) - 1 && timerRunning
                && pendingSettles == old(pendingSettles) && View() == old(View())
      ensures !old(isPaused) && old(remainingTime) <= 1 ==>
                && remainingTime == 0 && !timerRunning && pendingSettles == old(pendingSettles) + 1
                && View() == Graded(old(View()), questions[old(timerQuestion)], draws)
    {
      if isPaused {
        return;
      }
      if remainingTime <= 1 {
        TimeUp(draws);
      } else {
        remainingTime := remainingTime - 1;
      }
    }

    /** The last question tick: the clock reaches zero, the interval is
        cleared, the question is graded and the settle timeout scheduled. */
    method TimeUp(draws: seq<Draw>)
      requires RosterValid() && ClocksValid() && TimerLinked()
      requires timerRunning && remainingTime <= 1 && |draws| == |players|
      modifies players, this`remainingTime, this`timerRunning, this`pendingSettles
      ensures RosterValid() && ClocksValid() && TimerLinked()
      ensures remainingTime == 0 && !timerRunning && pendingSettles == old(pendingSettles) + 1
      ensures View() == Graded(old(View()), questions[old(timerQuestion)], draws)
    {
      var q := questions[timerQuestion];
      StopTimer();
      CheckAnswers(q, draws);
    }

    /** The field updates of the last question tick. */
    method StopTimer()
      requires ClocksValid() && TimerLinked() && timerRunning && remainingTime <= 1
      modifies this`remainingTime, this`timerRunning, this`pendingSettles
      ensures ClocksValid() && TimerLinked()
      ensures remainingTime == 0 && !timerRunning && pendingSettles == old(pendingSettles) + 1
      ensures View() == old(View())
    {
      remainingTime := remainingTime - 1;
      timerRunning := false;
      pendingSettles := pendingSettles + 1;
    }

    /** The settle timeout firing: move to the next question, and go on to
        it, or end the game past the end of the bank. */
    method SettleDone()
      requires ClocksValid() && pendingSettles > 0
      modifies this`pendingSettles, this`currentQuestionIndex, this`displayedQuestionNumber, this`gameState,
               this`timerRunning, this`kickedPlayers, this`remainingTime, this`timerQuestion
      ensures ClocksValid() && TimerLinked()
      ensures View() == old(View())
      ensures pendingSettles == old(pendingSettles) - 1 && currentQuestionIndex == old(currentQuestionIndex) + 1
      ensures Advanced(old(displayedQuestionNumber), old(kickedPlayers), old(remainingTime), old(timerQuestion))
    {
      pendingSettles := pendingSettles - 1;
      currentQuestionIndex := currentQuestionIndex + 1;
      if currentQuestionIndex < |questions| {
        NextQuestion();
      } else {
        // `endGame()`; the standings it broadcasts are not kept
        Finish();
      }
    }

    /** `pauseGame()`: flips the question pause, in any phase. */
    method PauseGame()
      modifies this`isPaused
      ensures isPaused == !old(isPaused)
    {
      isPaused := !isPaused;
    }

    /** `handleAnswer(id, qid, aid)` at time `now`: recorded only in the
        question phase and only for a player in the roster. */
    method HandleAnswer(id: Id, qid: int, aid: int, now: int)
      requires RosterValid()
      modifies players
      ensures RosterValid()
      ensures View() == if gameState == QuestionOpen then Answered(old(View()), id, qid, aid, now) else old(View())
    {
      ghost var before := View();
      AnsweredRoster(before, hostId, id, qid, aid, now);
      var k := Find(id);
      if k >= 0 && gameState == QuestionOpen {
        RecordAnswer(k, qid, aid, now);
      }
    }

    /** `player.answers[qid] = {answerId, timestamp}` on seat `k`. */
    method RecordAnswer(k: nat, qid: int, aid: int, now: int)
      requires UniqueIds(View()) && k < |players|
      modifies players[k]
      ensures View() == old(View())[k := old(View())[k].(answers := old(View())[k].answers[qid := Answer(aid, now)])]
    {
      ghost var before := View();
      Apart(k);
      var p := players[k];
      p.answers := p.answers[qid := Answer(aid, now)];
      ghost var after := before[k := before[k].(answers := before[k].answers[qid := Answer(aid, now)])];
      assert View() == after by {
        forall j | 0 <= j < |players| ensures View()[j] == after[j] {
          if j != k { assert players[j] != p; }
        }
      }
    }

    /** The question `useAbility` reads: none past the end of the bank. */
    function CurrentQuestion(): (q: Option<Question>)
      reads this
      ensures q.Some? <==> currentQuestionIndex < |questions|
      ensures q.Some? ==> q.value == questions[currentQuestionIndex]
    {
      if currentQuestionIndex < |questions| then Some(questions[currentQuestionIndex]) else None
    }

    /** `useAbility(callerId, kind, target)` with draw `r` and time `now`. */
    method UseAbility(callerId: Id, kind: AbilityType, target: Option<Id>, r: Random, now: int)
      returns (outcome: UseOutcome)
      requires RosterValid()
      modifies players
      ensures RosterValid()
      ensures UseResult(View(), outcome)
              == Use(old(View()), gameState != QuestionOpen || isPaused, CurrentQuestion(),
                     callerId, kind, target, r, now)
    {
      var warned := gameState != QuestionOpen || isPaused;
      UseRoster(View(), hostId, warned, CurrentQuestion(), callerId, kind, target, r, now);
      outcome := Invoke(callerId, kind, target, warned, r, now);
    }

    /** The body of `useAbility` once `warned` is known: find the caller
        and the ability, spend it, apply its effect. */
    method Invoke(callerId: Id, kind: AbilityType, target: Option<Id>, warned: bool, r: Random, now: int)
      returns (outcome: UseOutcome)
      requires UniqueIds(View())
      modifies players
      ensures UseResult(View(), outcome) == Use(old(View()), warned, CurrentQuestion(), callerId, kind, target, r, now)
    {
      var k := Find(callerId);
      if k < 0 {
        return Threw(PlayerMissing);
      }
      var a := FindAbility(players[k].abilities, kind);
      if a < 0 {
        return Threw(NotHeld);
      }
      outcome := SpendAndApply(k, kind, a, warned, target, r, now);
    }

    /** Spend the instance at `a` of seat `k`'s inventory, then apply it. */
    method SpendAndApply(k: nat, kind: AbilityType, a: nat, warned: bool, target: Option<Id>, r: Random, now: int)
      returns (outcome: UseOutcome)
      requires UniqueIds(View()) && k < |players|
      requires a < |players[k].abilities| && players[k].abilities[a] == kind
      requires forall j :: 0 <= j < a ==> players[k].abilities[j] != kind
      modifies players
      ensures UseResult(View(), outcome)
              == Effect(Spent(old(View()), k, kind), k, warned, CurrentQuestion(), kind, target, r, now)
    {
      Spend(k, kind, a);
      outcome := ApplyEffect(k, warned, kind, target, r, now);
    }

    /** The `splice` of `useAbility`: the first instance of `kind`, at
        `a`, leaves seat `k`'s inventory. */
    method Spend(k: nat, kind: AbilityType, a: nat)
      requires UniqueIds(View()) && k < |players|
      requires a < |players[k].abilities| && players[k].abilities[a] == kind
      requires forall j :: 0 <= j < a ==> players[k].abilities[j] != kind
      modifies players[k]
      ensures View() == Spent(old(View()), k, kind)
    {
      ghost var before := View();
      Apart(k);
      var p := players[k];
      RemoveFirstAt(p.abilities, kind, a);
      p.abilities := p.abilities[..a] + p.abilities[a + 1..];
      assert View() == Spent(before, k, kind) by {
        forall j | 0 <= j < |players| ensures View()[j] == Spent(before, k, kind)[j] {
          if j != k { assert players[j] != p; }
        }
      }
    }

    /** The `switch` of `useAbility`, after the spend. */
    method ApplyEffect(k: nat, warned: bool, kind: AbilityType, target: Option<Id>, r: Random, now: int)
      returns (outcome: UseOutcome)
      requires UniqueIds(View()) && k < |players|
      modifies players
      ensures UseResult(View(), outcome)
              == Effect(old(View()), k, warned, CurrentQuestion(), kind, target, r, now)
    {
      var current := CurrentQuestion();
      var t := -1;
      if target.Some? && target.value != "" {
        t := Find(target.value);
      }
      assert t == TargetIndex(View(), target);
      match kind {
        case Steal =>
          if t >= 0 {
            StealFrom(k, t);
          }
          outcome := Used(warned, None);
        case Right =>
          if current.None? {
            return Threw(NoCurrentQuestion);
          }
          outcome := Used(warned, Some(current.value.correctAnswerId));
        case Trick =>
          if t < 0 {
            return Used(warned, None);
          }
          if current.None? {
            return Threw(NoCurrentQuestion);
          }
          outcome := PlantWrongAnswer(t, current.value, r, now);
          if outcome.Used? {
            outcome := Used(warned, None);
          }
        case Help =>
          if t < 0 {
            return Used(warned, None);
          }
          if current.None? {
            return Threw(NoCurrentQuestion);
          }
          var q := current.value;
          var seen := players[t].answers;
          outcome := Used(warned, if q.id in seen then Some(seen[q.id].answerId) else None);
      }
    }

    /** `steal`: seat `k` takes `StealPoints` from seat `t`. */
    method StealFrom(k: nat, t: nat)
      requires UniqueIds(View()) && k < |players| && t < |players|
      modifies players[k], players[t]
      ensures View() == Stolen(old(View()), k, t)
    {
      ghost var before := View();
      Apart(k);
      Apart(t);
      var player := players[k];
      var victim := players[t];
      if victim.score >= StealPoints {
        player.score := player.score + StealPoints;
        victim.score := victim.score - StealPoints;
      } else {
        player.score := player.score + StealPoints;
      }
      assert View() == Stolen(before, k, t) by {
        forall j | 0 <= j < |players| ensures View()[j] == Stolen(before, k, t)[j] {
          if j != k { assert players[j] != player; }
          if j != t { assert players[j] != victim; }
        }
      }
    }

    /** `trick`: overwrite seat `t`'s answer to `q` with a random wrong
        option, failing when `q` has none. */
    method PlantWrongAnswer(t: nat, q: Question, r: Random, now: int) returns (outcome: UseOutcome)
      requires UniqueIds(View()) && t < |players|
      modifies players[t]
      ensures UseResult(View(), outcome) == Tricked(old(View()), t, q, r, now)
    {
      ghost var before := View();
      var wrong := WrongAnswers(q);
      if |wrong| == 0 {
        return Threw(NoWrongAnswer);
      }
      Apart(t);
      var pick := wrong[RandomIndex(r, |wrong|)];
      var victim := players[t];
      victim.answers := victim.answers[q.id := Answer(pick, now)];
      assert View() == Tricked(before, t, q, r, now).players by {
        forall j | 0 <= j < |players| ensures View()[j] == Tricked(before, t, q, r, now).players[j] {
          if j != t { assert players[j] != victim; }
        }
      }
      outcome := Used(false, None);
    }

    /** `restorePlayer(id, socketId)`: re-attach a connection to the
        player with that id and mark it connected; null if absent. */
    method RestorePlayer(id: Id, socketId: string) returns (p: Player?)
      requires RosterValid()
      modifies players
      ensures RosterValid()
      ensures var k := IndexOf(old(View()), id);
        && (k < 0 ==> p == null && View() == old(View()))
        && (k >= 0 ==>
              p == players[k]
              && View() == old(View())[k := old(View())[k].(socketId := Some(socketId), connected := true)])
    {
      ghost var before := View();
      var k := Find(id);
      if k < 0 {
        return null;
      }
      p := players[k];
      SameSeats(before, before[k := before[k].(socketId := Some(socketId), connected := true)], hostId);
      Reattach(k, socketId);
    }

    /** `player.socketId = socketId; player.connected = true` on seat `k`. */
    method Reattach(k: nat, socketId: string)
      requires UniqueIds(View()) && k < |players|
      modifies players[k]
      ensures View() == old(View())[k := old(View())[k].(socketId := Some(socketId), connected := true)]
    {
      ghost var before := View();
      Apart(k);
      var p := players[k];
      p.socketId := Some(socketId);
      p.connected := true;
      ghost var after := before[k := before[k].(socketId := Some(socketId), connected := true)];
      assert View() == after by {
        forall j | 0 <= j < |players| ensures View()[j] == after[j] {
          if j != k { assert players[j] != p; }
        }
      }
    }
  }
}

=== FILE: rules.dfy ===
/** The room's rules as functions on values: what each roster update,
    grading pass, deal and ability use does to the players' records, and
    the properties those updates keep. The room's methods are proved
    against these functions. */
module Rules {
  import opened Quiz

  // ---------------------------------------------------------------------
  // Roster lookups

  predicate HasId(ps: seq<PlayerState>, id: Id) {
    exists i :: 0 <= i < |ps| && ps[i].id == id
  }

  predicate UniqueIds(ps: seq<PlayerState>) {
    forall i, j :: 0 <= i < j < |ps| ==> ps[i].id != ps[j].id
  }

  /** `players.find(p => p.id === id)` as a position: the first player
      with that id, or -1 when there is none. */
  function IndexOf(ps: seq<PlayerState>, id: Id): (k: int)
    ensures -1 <= k < |ps|
    ensures k >= 0 ==> ps[k].id == id && forall j :: 0 <= j < k ==> ps[j].id != id
    ensures k < 0 <==> !HasId(ps, id)
  {
    if ps == [] then -1
    else if ps[0].id == id then 0
    else
      var k := IndexOf(ps[1..], id);
      assert HasId(ps, id) ==> HasId(ps[1..], id) by {
        if HasId(ps, id) {
          var i :| 0 <= i < |ps| && ps[i].id == id;
          assert ps[1..][i - 1].id == id;
        }
      }
      if k < 0 then -1 else k + 1
  }

  // ---------------------------------------------------------------------
  // setHost

  /** Every player's host flag agrees with the room's `hostId`. */
  predicate HostFlags(ps: seq<PlayerState>, hostId: Option<Id>) {
    forall i :: 0 <= i < |ps| ==> (ps[i].isHost <==> hostId == Some(ps[i].id))
  }

  /** `setHost(id)`: the flag is set exactly on the players with that id. */
  function WithHost(ps: seq<PlayerState>, id: Id): (r: seq<PlayerState>)
    ensures |r| == |ps| && HostFlags(r, Some(id))
    ensures forall i :: 0 <= i < |ps| ==> r[i] == ps[i].(isHost := r[i].isHost)
  {
    seq(|ps|, i requires 0 <= i < |ps| => ps[i].(isHost := ps[i].id == id))
  }

  /** Moving the host flag seats no one new. */
  lemma WithHostAbsent(ps: seq<PlayerState>, h: Id, id: Id)
    requires !HasId(ps, id)
    ensures !HasId(WithHost(ps, h), id)
  {
    var r := WithHost(ps, h);
    forall i | 0 <= i < |r| ensures r[i].id != id {
      assert r[i].id == ps[i].id;
    }
  }

  function CountHosts(ps: seq<PlayerState>): nat {
    if ps == [] then 0 else (if ps[0].isHost then 1 else 0) + CountHosts(ps[1..])
  }

  /** With distinct ids, flags that agree with `hostId` make exactly one
      host when `hostId` names a player in the list, and none otherwise. */
  lemma {:induction false} HostCount(ps: seq<PlayerState>, hostId: Option<Id>)
    requires UniqueIds(ps) && HostFlags(ps, hostId)
    ensures CountHosts(ps) == if hostId.Some? && HasId(ps, hostId.value) then 1 else 0
  {
    if ps != [] {
      var rest := ps[1..];
      assert UniqueIds(rest) && HostFlags(rest, hostId) by {
        forall i | 0 <= i < |rest| ensures rest[i] == ps[i + 1] { }
      }
      HostCount(rest, hostId);
      if hostId.Some? {
        var h := hostId.value;
        if ps[0].id == h {
          assert !HasId(rest, h) by {
            forall i | 0 <= i < |rest| ensures rest[i].id != h {
              assert rest[i] == ps[i + 1];
            }
          }
          assert HasId(ps, h) by { assert ps[0].id == h; }
        } else {
          assert HasId(ps, h) <==> HasId(rest, h) by {
            if HasId(ps, h) {
              var i :| 0 <= i < |ps| && ps[i].id == h;
              assert rest[i - 1].id == h;
            }
            if HasId(rest, h) {
              var i :| 0 <= i < |rest| && rest[i].id == h;
              assert ps[i + 1].id == h;
            }
          }
        }
      }
    }
  }

  // ---------------------------------------------------------------------
  // The roster invariant

  /** What the room keeps true of its roster: distinct ids, host flags that
      agree with `hostId`, a host in every non-empty roster, and no
      inventory holding a type twice. */
  predicate RosterOk(ps: seq<PlayerState>, hostId: Option<Id>) {
    && UniqueIds(ps)
    && HostFlags(ps, hostId)
    && (|ps| > 0 ==> hostId.Some? && HasId(ps, hostId.value))
    && forall i :: 0 <= i < |ps| ==> NoDuplicates(ps[i].abilities)
  }

  /** An update that keeps every seat's id and host flag and leaves every
      inventory free of repeats keeps the roster invariant. */
  lemma SameSeats(a: seq<PlayerState>, b: seq<PlayerState>, hostId: Option<Id>)
    requires RosterOk(a, hostId) && |b| == |a|
    requires forall i :: 0 <= i < |a| ==> b[i].id == a[i].id && b[i].isHost == a[i].isHost
    requires forall i :: 0 <= i < |b| ==> NoDuplicates(b[i].abilities)
    ensures RosterOk(b, hostId)
  {
    if |a| > 0 {
      var i :| 0 <= i < |a| && a[i].id == hostId.value;
      assert b[i].id == hostId.value;
    }
  }

  /** `setHost(id)` on a roster holding `id` establishes the invariant
      with `id` as host. */
  lemma WithHostRoster(ps: seq<PlayerState>, id: Id)
    requires UniqueIds(ps) && HasId(ps, id)
    requires forall i :: 0 <= i < |ps| ==> NoDuplicates(ps[i].abilities)
    ensures RosterOk(WithHost(ps, id), Some(id))
  {
    var r := WithHost(ps, id);
    var i :| 0 <= i < |ps| && ps[i].id == id;
    assert r[i].id == id;
  }

  /** `addPlayer(p)`: a newcomer with a fresh id and no host flag keeps the
      invariant of a non-empty roster, and becomes host of an empty one. */
  lemma JoinRoster(ps: seq<PlayerState>, hostId: Option<Id>, p: PlayerState)
    requires RosterOk(ps, hostId) && !HasId(ps, p.id)
    requires !p.isHost && NoDuplicates(p.abilities)
    ensures |ps| > 0 ==> RosterOk(ps + [p], hostId)
    ensures |ps| == 0 ==> RosterOk(WithHost([p], p.id), Some(p.id))
  {
    var r := ps + [p];
    assert r[|ps|] == p;
    assert forall i :: 0 <= i < |ps| ==> r[i] == ps[i];
    if |ps| > 0 {
      var i :| 0 <= i < |ps| && ps[i].id == hostId.value;
      assert r[i].id == hostId.value;
      assert hostId.value != p.id;
    } else {
      WithHostRoster([p], p.id);
    }
  }

  /** `removePlayer(id)`: cutting out the seat at `k` keeps the invariant,
      with the host role passed to the first remaining player when the host
      left (and left unset when nobody remains). */
  lemma LeaveRoster(ps: seq<PlayerState>, hostId: Option<Id>, k: nat)
    requires RosterOk(ps, hostId) && k < |ps|
    ensures var rest := ps[..k] + ps[k + 1..];
      if hostId == Some(ps[k].id) && |rest| > 0
      then RosterOk(WithHost(rest, rest[0].id), Some(rest[0].id))
      else RosterOk(rest, hostId)
  {
    var rest := ps[..k] + ps[k + 1..];
    assert forall i :: 0 <= i < |rest| ==> rest[i] == ps[if i < k then i else i + 1];
    assert UniqueIds(rest);
    if hostId == Some(ps[k].id) && |rest| > 0 {
      assert HasId(rest, rest[0].id);
      WithHostRoster(rest, rest[0].id);
    } else if |rest| > 0 {
      var i :| 0 <= i < |ps| && ps[i].id == hostId.value;
      assert i != k;
      assert rest[if i < k then i else i - 1].id == hostId.value;
    }
  }

  // ---------------------------------------------------------------------
  // removePlayer: `players.filter(p => p.id !== id)`

  function Without(ps: seq<PlayerState>, id: Id): (r: seq<PlayerState>)
    ensures !HasId(r, id)
    ensures |r| <= |ps|
  {
    if ps == [] then []
    else
      var rest := Without(ps[1..], id);
      if ps[0].id == id then rest
      else
        assert !HasId([ps[0]] + rest, id) by {
          forall i | 0 <= i < |rest| + 1 ensures ([ps[0]] + rest)[i].id != id {
            if i > 0 { assert ([ps[0]] + rest)[i] == rest[i - 1]; }
          }
        }
        [ps[0]] + rest
  }

  lemma {:induction false} WithoutAbsent(ps: seq<PlayerState>, id: Id)
    requires !HasId(ps, id)
    ensures Without(ps, id) == ps
  {
    if ps != [] {
      assert ps[0].id != id;
      assert !HasId(ps[1..], id) by {
        forall i | 0 <= i < |ps| - 1 ensures ps[1..][i].id != id {
          assert ps[1..][i] == ps[i + 1];
        }
      }
      WithoutAbsent(ps[1..], id);
      assert ps == [ps[0]] + ps[1..];
    }
  }

  /** With distinct ids, filtering out the id at position `k` removes
      exactly that position and keeps the others in their order. */
  lemma {:induction false} WithoutAt(ps: seq<PlayerState>, k: nat)
    requires UniqueIds(ps) && k < |ps|
    ensures Without(ps, ps[k].id) == ps[..k] + ps[k + 1..]
  {
    var id := ps[k].id;
    var rest := ps[1..];
    assert UniqueIds(rest);
    if k == 0 {
      assert !HasId(rest, id) by {
        forall i | 0 <= i < |rest| ensures rest[i].id != id {
          assert rest[i] == ps[i + 1];
        }
      }
      WithoutAbsent(rest, id);
    } else {
      assert rest[k - 1] == ps[k];
      WithoutAt(rest, k - 1);
      assert ps[0].id != id;
      assert ps[..k] + ps[k + 1..] == [ps[0]] + (rest[..k - 1] + rest[k..]);
    }
  }

  // ---------------------------------------------------------------------
  // The kick list

  /** `cleanKickedPlayers()`: the entries that are at most `KickTtl`
      milliseconds old at `now`. */
  function Swept(kicked: map<Id, int>, now: int): (r: map<Id, int>)
    ensures r.Keys <= kicked.Keys
    ensures forall id :: id in r ==> r[id] == kicked[id]
  {
    map id | id in kicked && now - kicked[id] <= KickTtl :: kicked[id]
  }

  /** An identity kicked at `t` is refused exactly while `now - t` is at
      most the kick lifetime. */
  lemma KickWindow(kicked: map<Id, int>, id: Id, t: int, now: int)
    ensures id in Swept(kicked[id := t], now) <==> now - t <= KickTtl
  {
  }

  // ---------------------------------------------------------------------
  // Chat history

  /** `addMessage(m)`: push, then drop the oldest if over the cap. */
  function Appended(history: seq<Message>, m: Message): (r: seq<Message>)
    ensures |history| <= HistoryCap ==> |r| <= HistoryCap
    ensures |r| > 0 && r[|r| - 1] == m
    ensures |history| < HistoryCap ==> r[..|r| - 1] == history
    ensures |history| >= HistoryCap ==> r[..|r| - 1] == history[1..]
  {
    if |history| + 1 > HistoryCap then
      assert (history + [m])[1..] == history[1..] + [m];
      history[1..] + [m]
    else history + [m]
  }

  // ---------------------------------------------------------------------
  // Grading (checkAnswers)

  predicate AnsweredCorrectly(p: PlayerState, q: Question) {
    q.id in p.answers && p.answers[q.id].answerId == q.correctAnswerId
  }

  /** The catalogue entries from `from` on that are not in `held`, in order. */
  function AvailableFrom(from: nat, held: seq<AbilityType>): (r: seq<AbilityType>)
    requires from <= |Catalogue|
    ensures forall t :: t in r <==> t !in held && t in Catalogue[from..]
    ensures forall i :: 0 <= i < |r| ==> r[i] in Catalogue[from..]
    ensures NoDuplicates(r)
    decreases |Catalogue| - from
  {
    if from == |Catalogue| then []
    else
      var rest := AvailableFrom(from + 1, held);
      assert Catalogue[from..] == [Catalogue[from]] + Catalogue[from + 1..];
      if Catalogue[from] in held then rest
      else
        assert Catalogue[from] !in Catalogue[from + 1..];
        [Catalogue[from]] + rest
  }

  /** Every ability type is in the catalogue. */
  lemma CatalogueComplete()
    ensures forall t: AbilityType :: t in Catalogue
  {
    forall t: AbilityType ensures t in Catalogue {
      match t {
        case Right => assert Catalogue[0] == t;
        case Trick => assert Catalogue[1] == t;
        case Help => assert Catalogue[2] == t;
        case Steal => assert Catalogue[3] == t;
      }
    }
  }

  /** `this.abilities.filter(a => !player.abilities.some(pa => pa.type === a.type))` */
  function Available(held: seq<AbilityType>): (r: seq<AbilityType>)
    ensures forall t :: t in r <==> t !in held
    ensures NoDuplicates(r)
  {
    var r := AvailableFrom(0, held);
    CatalogueComplete();
    r
  }

  /** The ability grant after a correct answer: with a draw above the
      threshold and fewer than `AbilityCap` held, one type not yet held is
      appended. */
  function Granted(held: seq<AbilityType>, d: Draw): (r: seq<AbilityType>)
    ensures r != held <==> d.first > GrantThreshold && |held| < AbilityCap && |Available(held)| > 0
    ensures r != held ==> |r| == |held| + 1 && r[..|held|] == held && r[|held|] !in held
    ensures NoDuplicates(held) ==> NoDuplicates(r)
  {
    var avail := Available(held);
    if d.first > GrantThreshold && |held| < AbilityCap && |avail| > 0 then
      held + [avail[RandomIndex(d.second, |avail|)]]
    else held
  }

  /** One player's part of `checkAnswers(q)`. */
  function GradeOne(p: PlayerState, q: Question, d: Draw): (r: PlayerState)
    ensures r.score == p.score + (if AnsweredCorrectly(p, q) then CorrectPoints else 0)
    ensures r == p.(score := r.score, abilities := r.abilities)
    ensures r.abilities != p.abilities <==>
              AnsweredCorrectly(p, q) && d.first > GrantThreshold
              && |p.abilities| < AbilityCap && |Available(p.abilities)| > 0
    ensures r.abilities != p.abilities ==>
              && |r.abilities| == |p.abilities| + 1
              && r.abilities[..|p.abilities|] == p.abilities
              && r.abilities[|p.abilities|] !in p.abilities
    ensures NoDuplicates(p.abilities) ==> NoDuplicates(r.abilities)
  {
    if AnsweredCorrectly(p, q) then
      p.(score := p.score + CorrectPoints, abilities := Granted(p.abilities, d))
    else p
  }

  /** `checkAnswers(q)` over the whole roster, player `i` using `draws[i]`. */
  function Graded(ps: seq<PlayerState>, q: Question, draws: seq<Draw>): (r: seq<PlayerState>)
    requires |draws| == |ps|
    ensures |r| == |ps|
  {
    seq(|ps|, i requires 0 <= i < |ps| => GradeOne(ps[i], q, draws[i]))
  }

  /** Grading keeps the roster invariant. */
  lemma GradedRoster(ps: seq<PlayerState>, hostId: Option<Id>, q: Question, draws: seq<Draw>)
    requires RosterOk(ps, hostId) && |draws| == |ps|
    ensures RosterOk(Graded(ps, q, draws), hostId)
  {
    SameSeats(ps, Graded(ps, q, draws), hostId);
  }

  function TotalScore(ps: seq<PlayerState>): int {
    if ps == [] then 0 else ps[0].score + TotalScore(ps[1..])
  }

  function CountCorrect(ps: seq<PlayerState>, q: Question): nat {
    if ps == [] then 0 else (if AnsweredCorrectly(ps[0], q) then 1 else 0) + CountCorrect(ps[1..], q)
  }

  /** Grading adds exactly `CorrectPoints` per correct answer to the room's
      total and nothing else. */
  lemma {:induction false} GradedTotal(ps: seq<PlayerState>, q: Question, draws: seq<Draw>)
    requires |draws| == |ps|
    ensures TotalScore(Graded(ps, q, draws)) == TotalScore(ps) + CorrectPoints * CountCorrect(ps, q)
  {
    if ps != [] {
      assert Graded(ps, q, draws)[1..] == Graded(ps[1..], q, draws[1..]);
      GradedTotal(ps[1..], q, draws[1..]);
    }
  }

  /** A player holding no duplicate types holds at most four abilities. */
  lemma {:induction false} DistinctWithin(s: seq<AbilityType>, allowed: set<AbilityType>)
    requires NoDuplicates(s) && forall i :: 0 <= i < |s| ==> s[i] in allowed
    ensures |s| <= |allowed|
  {
    if s != [] {
      var rest := s[1..];
      assert forall i :: 0 <= i < |rest| ==> rest[i] in allowed - {s[0]} by {
        forall i | 0 <= i < |rest| ensures rest[i] in allowed - {s[0]} {
          assert rest[i] == s[i + 1];
        }
      }
      DistinctWithin(rest, allowed - {s[0]});
    }
  }

  /** Inventories never have duplicate types, so the `AbilityCap` test in
      grading never refuses a grant: the held count is at most four. */
  lemma CapNeverBinds(held: seq<AbilityType>)
    requires NoDuplicates(held)
    ensures |held| < AbilityCap
  {
    var all := {Right, Trick, Help, Steal};
    assert forall i :: 0 <= i < |held| ==> held[i] in all by {
      forall i | 0 <= i < |held| ensures held[i] in all {
        match held[i] { case Right => case Trick => case Help => case Steal => }
      }
    }
    DistinctWithin(held, all);
  }

  // ---------------------------------------------------------------------
  // Dealing (assignAbilities)

  /** The inner loop of `assignAbilities`: for each draw, while types
      remain, take `avail[floor(r * |avail|)]` and splice it out. */
  function DealFrom(avail: seq<AbilityType>, rs: seq<Random>): (hand: seq<AbilityType>)
    ensures |hand| <= |rs|
  {
    if rs == [] then []
    else if |avail| > 0 then
      var k := RandomIndex(rs[0], |avail|);
      [avail[k]] + DealFrom(avail[..k] + avail[k + 1..], rs[1..])
    else DealFrom(avail, rs[1..])
  }

  /** A hand dealt from distinct types holds distinct types, one per draw
      while the supply lasts, all taken from the supply. */
  lemma {:induction false} DealFromDistinct(avail: seq<AbilityType>, rs: seq<Random>)
    requires NoDuplicates(avail)
    ensures var hand := DealFrom(avail, rs);
      && NoDuplicates(hand)
      && |hand| == (if |rs| < |avail| then |rs| else |avail|)
      && forall t :: t in hand ==> t in avail
  {
    if rs != [] && |avail| > 0 {
      var k := RandomIndex(rs[0], |avail|);
      var left := avail[..k] + avail[k + 1..];
      assert NoDuplicates(left) && avail[k] !in left by {
        forall i | 0 <= i < |left| ensures left[i] == avail[if i < k then i else i + 1] { }
      }
      assert forall t :: t in left ==> t in avail;
      DealFromDistinct(left, rs[1..]);
    } else if rs != [] {
      DealFromDistinct(avail, rs[1..]);
    }
  }

  /** The hand a player gets at game start: two draws against the full
      catalogue. */
  function Dealt(d: Draw): (hand: seq<AbilityType>)
    ensures |hand| == 2 && hand[0] != hand[1]
  {
    assert NoDuplicates(Catalogue);
    DealFromDistinct(Catalogue, [d.first, d.second]);
    DealFrom(Catalogue, [d.first, d.second])
  }

  /** `assignAbilities()` over the roster, player `i` using `draws[i]`. */
  function DealtAll(ps: seq<PlayerState>, draws: seq<Draw>): (r: seq<PlayerState>)
    requires |draws| == |ps|
    ensures |r| == |ps|
    ensures forall i :: 0 <= i < |ps| ==> r[i] == ps[i].(abilities := r[i].abilities)
    ensures forall i :: 0 <= i < |ps| ==> |r[i].abilities| == 2 && NoDuplicates(r[i].abilities)
  {
    seq(|ps|, i requires 0 <= i < |ps| => ps[i].(abilities := Dealt(draws[i])))
  }

  /** Dealing keeps the roster invariant. */
  lemma DealtRoster(ps: seq<PlayerState>, hostId: Option<Id>, draws: seq<Draw>)
    requires RosterOk(ps, hostId) && |draws| == |ps|
    ensures RosterOk(DealtAll(ps, draws), hostId)
  {
    SameSeats(ps, DealtAll(ps, draws), hostId);
  }

  // ---------------------------------------------------------------------
  // Answers (handleAnswer)

  /** Record `{answerId, timestamp}` for `qid` on the player with `id`. */
  function Answered(ps: seq<PlayerState>, id: Id, qid: int, aid: int, now: int): (r: seq<PlayerState>)
    ensures |r| == |ps|
    ensures forall i :: 0 <= i < |ps| && i != IndexOf(ps, id) ==> r[i] == ps[i]
    ensures forall i :: 0 <= i < |ps| && ps[i].id == id && i == IndexOf(ps, id) ==>
              r[i] == ps[i].(answers := ps[i].answers[qid := Answer(aid, now)])
  {
    var k := IndexOf(ps, id);
    if k < 0 then ps else ps[k := ps[k].(answers := ps[k].answers[qid := Answer(aid, now)])]
  }

  /** Recording an answer keeps the roster invariant. */
  lemma AnsweredRoster(ps: seq<PlayerState>, hostId: Option<Id>, id: Id, qid: int, aid: int, now: int)
    requires RosterOk(ps, hostId)
    ensures RosterOk(Answered(ps, id, qid, aid, now), hostId)
  {
    SameSeats(ps, Answered(ps, id, qid, aid, now), hostId);
  }

  // ---------------------------------------------------------------------
  // Abilities (useAbility)

  /** `abilities.splice(abilities.findIndex(a => a.type === t), 1)` */
  function RemoveFirst(s: seq<AbilityType>, t: AbilityType): (r: seq<AbilityType>)
    requires t in s
    ensures |r| == |s| - 1
    ensures multiset(r) == multiset(s) - multiset{t}
    ensures forall x :: x in r ==> x in s
  {
    if s[0] == t then
      assert s == [s[0]] + s[1..];
      s[1..]
    else
      assert s == [s[0]] + s[1..];
      [s[0]] + RemoveFirst(s[1..], t)
  }

  /** Splicing out the first occurrence, found at `a`, is `RemoveFirst`. */
  lemma {:induction false} RemoveFirstAt(s: seq<AbilityType>, t: AbilityType, a: nat)
    requires a < |s| && s[a] == t && forall j :: 0 <= j < a ==> s[j] != t
    ensures RemoveFirst(s, t) == s[..a] + s[a + 1..]
  {
    if a == 0 {
      assert s[..0] + s[1..] == s[1..];
    } else {
      var u := s[1..];
      RemoveFirstAt(u, t, a - 1);
      var l := s[..a] + s[a + 1..];
      var r := [s[0]] + (u[..a - 1] + u[a..]);
      forall i | 0 <= i < |l| ensures l[i] == r[i] {
        if i > 0 && i < a {
          assert r[i] == u[i - 1];
        } else if i >= a {
          assert r[i] == u[i];
        }
      }
      assert l == r;
    }
  }

  /** With distinct types, the spent type is gone afterwards: an ability
      instance is usable once. */
  lemma {:induction false} SpentIsGone(s: seq<AbilityType>, t: AbilityType)
    requires NoDuplicates(s) && t in s
    ensures t !in RemoveFirst(s, t) && NoDuplicates(RemoveFirst(s, t))
  {
    assert s == [s[0]] + s[1..];
    assert NoDuplicates(s[1..]);
    if s[0] != t {
      var rest := RemoveFirst(s[1..], t);
      SpentIsGone(s[1..], t);
      assert s[0] !in s[1..];
      assert s[0] !in rest;
      var r := [s[0]] + rest;
      assert r == RemoveFirst(s, t);
      forall i, j | 0 <= i < j < |r| ensures r[i] != r[j] {
        if i > 0 { assert r[i] == rest[i - 1]; }
        assert r[j] == rest[j - 1];
      }
    }
  }

  datatype AbilityError =
    | PlayerMissing      // the caller is not in the roster: `player.abilities` on undefined
    | NotHeld            // "ability does not exist" is thrown
    | NoCurrentQuestion  // `currentQuestion` is undefined after the last question
    | NoWrongAnswer      // `trick` on a question whose every option is correct

  /** What the server tries to send privately: `warned` is the "only
      during an active question" notice and `shown` an answer id (the
      correct one for `Right`, the target's for `Help`). The notice and the
      `Right` reveal are addressed to the caller's recorded `socketId`, the
      `Help` reveal to a channel named after the caller's id; whether they
      arrive is not part of this outcome. */
  datatype UseOutcome = Used(warned: bool, shown: Option<int>) | Threw(error: AbilityError)

  datatype UseResult = UseResult(players: seq<PlayerState>, outcome: UseOutcome)

  /** `targetPlayerId ? players.find(...) : null`: the empty string is
      falsy, like a missing target. */
  function TargetIndex(ps: seq<PlayerState>, target: Option<Id>): (t: int)
    ensures -1 <= t < |ps|
    ensures t >= 0 ==> target.Some? && ps[t].id == target.value
    ensures target.Some? && target.value != "" && HasId(ps, target.value) ==> t == IndexOf(ps, target.value)
    ensures !(target.Some? && target.value != "" && HasId(ps, target.value)) ==> t < 0
  {
    if target.Some? && target.value != "" then IndexOf(ps, target.value) else -1
  }

  /** `steal`: the caller gains `StealPoints`; the target loses them only
      when it holds at least that many. The target's score is read before
      the caller's is raised, as in the source (they may be one player). */
  function Stolen(ps: seq<PlayerState>, k: nat, t: nat): (r: seq<PlayerState>)
    requires k < |ps| && t < |ps|
    ensures |r| == |ps|
  {
    var targetScore := ps[t].score;
    var ps1 := ps[k := ps[k].(score := ps[k].score + StealPoints)];
    if targetScore >= StealPoints then ps1[t := ps1[t].(score := ps1[t].score - StealPoints)]
    else ps1
  }

  /** `trick`: overwrite the target's answer to `q` with a wrong option. */
  function Tricked(ps: seq<PlayerState>, t: nat, q: Question, r: Random, now: int): (res: UseResult)
    requires t < |ps|
    ensures |res.players| == |ps|
  {
    var wrong := WrongAnswers(q);
    if |wrong| == 0 then UseResult(ps, Threw(NoWrongAnswer))
    else
      var a := wrong[RandomIndex(r, |wrong|)];
      UseResult(ps[t := ps[t].(answers := ps[t].answers[q.id := Answer(a, now)])], Used(false, None))
  }

  /** What an ability does once the caller's instance is spent: `ps` is
      the roster after the spend and `k` the caller's seat. */
  function Effect(ps: seq<PlayerState>, k: nat, warned: bool, current: Option<Question>,
                  kind: AbilityType, target: Option<Id>, r: Random, now: int): (res: UseResult)
    requires k < |ps|
    ensures |res.players| == |ps|
  {
    var t := TargetIndex(ps, target);
    match kind
    case Steal =>
      UseResult(if t < 0 then ps else Stolen(ps, k, t), Used(warned, None))
    case Right =>
      if current.None? then UseResult(ps, Threw(NoCurrentQuestion))
      else UseResult(ps, Used(warned, Some(current.value.correctAnswerId)))
    case Trick =>
      if t < 0 then UseResult(ps, Used(warned, None))
      else if current.None? then UseResult(ps, Threw(NoCurrentQuestion))
      else
        var res := Tricked(ps, t, current.value, r, now);
        if res.outcome.Used? then res.(outcome := Used(warned, None)) else res
    case Help =>
      if t < 0 then UseResult(ps, Used(warned, None))
      else if current.None? then UseResult(ps, Threw(NoCurrentQuestion))
      else
        var q := current.value;
        UseResult(ps, Used(warned, if q.id in ps[t].answers then Some(ps[t].answers[q.id].answerId) else None))
  }

  /** The caller's roster after spending one instance of `kind`. */
  function Spent(ps: seq<PlayerState>, k: nat, kind: AbilityType): (r: seq<PlayerState>)
    requires k < |ps| && kind in ps[k].abilities
    ensures |r| == |ps|
  {
    ps[k := ps[k].(abilities := RemoveFirst(ps[k].abilities, kind))]
  }

  /** `useAbility(callerId, kind, target)` with the room's phase, pause
      flag and current question (None past the last question): the caller
      must be present and hold the type; the instance is spent before the
      phase is looked at or the effect can fail. */
  function Use(ps: seq<PlayerState>, warned: bool, current: Option<Question>,
               callerId: Id, kind: AbilityType, target: Option<Id>, r: Random, now: int): (res: UseResult)
    ensures |res.players| == |ps|
  {
    var k := IndexOf(ps, callerId);
    if k < 0 then UseResult(ps, Threw(PlayerMissing))
    else if kind !in ps[k].abilities then UseResult(ps, Threw(NotHeld))
    else Effect(Spent(ps, k, kind), k, warned, current, kind, target, r, now)
  }
}

/** Properties of `useAbility`, stated on the value function `Rules.Use`. */
module AbilityFacts {
  import opened Quiz
  import opened Rules

  /** `steal` changes scores only. */
  lemma StolenOnlyScores(ps: seq<PlayerState>, k: nat, t: nat)
    requires k < |ps| && t < |ps|
    ensures var r := Stolen(ps, k, t);
      forall i :: 0 <= i < |ps| ==> r[i] == ps[i].(score := r[i].score)
  {
  }

  /** `trick` changes answers only. */
  lemma TrickedOnlyAnswers(ps: seq<PlayerState>, t: nat, q: Question, r: Random, now: int)
    requires t < |ps|
    ensures var res := Tricked(ps, t, q, r, now);
      forall i :: 0 <= i < |ps| ==> res.players[i] == ps[i].(answers := res.players[i].answers)
  {
  }

  /** No effect moves a seat, renames a player, touches a host flag or
      changes an inventory. */
  lemma EffectKeepsSeats(ps: seq<PlayerState>, k: nat, warned: bool, current: Option<Question>,
                         kind: AbilityType, target: Option<Id>, r: Random, now: int)
    requires k < |ps|
    ensures var res := Effect(ps, k, warned, current, kind, target, r, now);
      forall i :: 0 <= i < |ps| ==>
        && res.players[i].id == ps[i].id
        && res.players[i].isHost == ps[i].isHost
        && res.players[i].abilities == ps[i].abilities
  {
    var t := TargetIndex(ps, target);
    match kind
    case Steal =>
      if t >= 0 {
        StolenOnlyScores(ps, k, t);
      }
    case Trick =>
      if t >= 0 && current.Some? {
        TrickedOnlyAnswers(ps, t, current.value, r, now);
      }
    case Right =>
    case Help =>
  }

  /** The caller must be in the roster and hold the type; otherwise the
      call throws and nothing changes. When it does hold it, exactly one
      instance of that type leaves the caller's inventory, whatever the
      phase or pause state, and no other inventory changes. */
  lemma UseSpendsOne(ps: seq<PlayerState>, warned: bool, current: Option<Question>,
                     callerId: Id, kind: AbilityType, target: Option<Id>, r: Random, now: int)
    ensures var res := Use(ps, warned, current, callerId, kind, target, r, now);
            var k := IndexOf(ps, callerId);
      && (res.outcome == Threw(PlayerMissing) <==> k < 0)
      && (res.outcome == Threw(NotHeld) <==> k >= 0 && kind !in ps[k].abilities)
      && (k < 0 || kind !in ps[k].abilities ==> res.players == ps)
      && (k >= 0 && kind in ps[k].abilities ==>
            && res.players[k].abilities == RemoveFirst(ps[k].abilities, kind)
            && multiset(res.players[k].abilities) == multiset(ps[k].abilities) - multiset{kind}
            && forall i :: 0 <= i < |ps| && i != k ==> res.players[i].abilities == ps[i].abilities)
  {
    var k := IndexOf(ps, callerId);
    if k >= 0 && kind in ps[k].abilities {
      var ps1 := Spent(ps, k, kind);
      var res := Effect(ps1, k, warned, current, kind, target, r, now);
      EffectKeepsSeats(ps1, k, warned, current, kind, target, r, now);
      assert res.outcome != Threw(PlayerMissing) && res.outcome != Threw(NotHeld) by {
        var t := TargetIndex(ps1, target);
        if kind == Trick && t >= 0 && current.Some? {
          var tr := Tricked(ps1, t, current.value, r, now);
        }
      }
    }
  }

  /** No ability moves a seat, renames a player or touches a host flag. */
  lemma UseKeepsSeats(ps: seq<PlayerState>, warned: bool, current: Option<Question>,
                      callerId: Id, kind: AbilityType, target: Option<Id>, r: Random, now: int)
    ensures var res := Use(ps, warned, current, callerId, kind, target, r, now);
      forall i :: 0 <= i < |ps| ==> res.players[i].id == ps[i].id && res.players[i].isHost == ps[i].isHost
  {
    var k := IndexOf(ps, callerId);
    if k >= 0 && kind in ps[k].abilities {
      EffectKeepsSeats(Spent(ps, k, kind), k, warned, current, kind, target, r, now);
    }
  }

  /** Using an ability keeps the roster invariant: no seat, id or host
      flag moves, and the spent inventory stays free of repeats. */
  lemma UseRoster(ps: seq<PlayerState>, hostId: Option<Id>, warned: bool, current: Option<Question>,
                  callerId: Id, kind: AbilityType, target: Option<Id>, r: Random, now: int)
    requires RosterOk(ps, hostId)
    ensures RosterOk(Use(ps, warned, current, callerId, kind, target, r, now).players, hostId)
  {
    var res := Use(ps, warned, current, callerId, kind, target, r, now);
    var k := IndexOf(ps, callerId);
    UseSpendsOne(ps, warned, current, callerId, kind, target, r, now);
    UseKeepsSeats(ps, warned, current, callerId, kind, target, r, now);
    if k >= 0 && kind in ps[k].abilities {
      SpentIsGone(ps[k].abilities, kind);
    }
    SameSeats(ps, res.players, hostId);
  }

  /** Spending an ability changes no score. */
  lemma SpentKeepsScores(ps: seq<PlayerState>, k: nat, kind: AbilityType)
    requires k < |ps| && kind in ps[k].abilities
    ensures forall i :: 0 <= i < |ps| ==> Spent(ps, k, kind)[i].score == ps[i].score
  {
  }

  /** Unfolding of `Use` for a seated caller holding the type, used by the
      lemmas below. */
  lemma UseSpendsThenActs(ps: seq<PlayerState>, warned: bool, current: Option<Question>,
                          callerId: Id, kind: AbilityType, target: Option<Id>, r: Random, now: int)
    requires HasId(ps, callerId) && kind in ps[IndexOf(ps, callerId)].abilities
    ensures var k := IndexOf(ps, callerId);
      Use(ps, warned, current, callerId, kind, target, r, now)
        == Effect(Spent(ps, k, kind), k, warned, current, kind, target, r, now)
  {
  }

  /** The instance is spent before the current question is read: once it
      is gone, `right`, and `trick` or `help` with a seated target, throw
      past the last question, and the throw keeps the spend. */
  lemma ThrowKeepsSpend(ps: seq<PlayerState>, warned: bool, current: Option<Question>,
                        callerId: Id, kind: AbilityType, target: Option<Id>, r: Random, now: int)
    requires HasId(ps, callerId) && kind in ps[IndexOf(ps, callerId)].abilities
    ensures var res := Use(ps, warned, current, callerId, kind, target, r, now);
            var k := IndexOf(ps, callerId);
      && (res.outcome == Threw(NoCurrentQuestion) <==>
            current.None? && (kind == Right || ((kind == Trick || kind == Help) && TargetIndex(ps, target) >= 0)))
      && (res.outcome == Threw(NoCurrentQuestion) ==> res.players == Spent(ps, k, kind))
  {
    var k := IndexOf(ps, callerId);
    UseSpendsThenActs(ps, warned, current, callerId, kind, target, r, now);
    var ps1 := Spent(ps, k, kind);
    if target.Some? {
      IndexOfSameIds(ps, ps1, target.value);
    }
    assert TargetIndex(ps1, target) == TargetIndex(ps, target);
    if kind == Trick && TargetIndex(ps, target) >= 0 && current.Some? {
      var tr := Tricked(ps1, TargetIndex(ps1, target), current.value, r, now);
      assert tr.outcome != Threw(NoCurrentQuestion);
    }
  }

  /** No effect makes a non-negative score negative. */
  lemma EffectKeepsScoresNonNegative(ps: seq<PlayerState>, k: nat, warned: bool, current: Option<Question>,
                                     kind: AbilityType, target: Option<Id>, r: Random, now: int)
    requires k < |ps| && forall i :: 0 <= i < |ps| ==> ps[i].score >= 0
    ensures var res := Effect(ps, k, warned, current, kind, target, r, now);
      forall i :: 0 <= i < |res.players| ==> res.players[i].score >= 0
  {
    var t := TargetIndex(ps, target);
    match kind
    case Steal =>
      if t >= 0 {
        var st := Stolen(ps, k, t);
        forall i | 0 <= i < |ps| ensures st[i].score >= 0 {
          if i == t && ps[t].score >= StealPoints {
            assert st[i].score == ps[t].score + (if t == k then StealPoints else 0) - StealPoints;
          }
        }
      }
    case Trick =>
      if t >= 0 && current.Some? {
        TrickedOnlyAnswers(ps, t, current.value, r, now);
      }
    case Right =>
    case Help =>
  }

  /** No ability makes a non-negative score negative: `steal` debits the
      target only when it holds at least `StealPoints`. */
  lemma UseKeepsScoresNonNegative(ps: seq<PlayerState>, warned: bool, current: Option<Question>,
                                  callerId: Id, kind: AbilityType, target: Option<Id>, r: Random, now: int)
    requires forall i :: 0 <= i < |ps| ==> ps[i].score >= 0
    ensures var res := Use(ps, warned, current, callerId, kind, target, r, now);
      forall i :: 0 <= i < |res.players| ==> res.players[i].score >= 0
  {
    var k := IndexOf(ps, callerId);
    if k >= 0 && kind in ps[k].abilities {
      UseSpendsThenActs(ps, warned, current, callerId, kind, target, r, now);
      var ps1 := Spent(ps, k, kind);
      SpentKeepsScores(ps, k, kind);
      EffectKeepsScoresNonNegative(ps1, k, warned, current, kind, target, r, now);
    }
  }

  /** `steal` between two seats moves `StealPoints` from the target to the
      caller when the target holds that many, and otherwise only credits
      the caller; nobody else is touched. */
  lemma StolenScores(ps: seq<PlayerState>, k: nat, t: nat)
    requires k < |ps| && t < |ps| && k != t
    ensures var st := Stolen(ps, k, t);
      && st[k] == ps[k].(score := ps[k].score + StealPoints)
      && st[t] == ps[t].(score := ps[t].score - (if ps[t].score >= StealPoints then StealPoints else 0))
      && forall i :: 0 <= i < |ps| && i != k && i != t ==> st[i] == ps[i]
  {
  }

  /** `steal` on another player: the caller gains `StealPoints`, the target
      loses them exactly when it holds at least that many, and no other
      score changes. */
  lemma StealMovesPoints(ps: seq<PlayerState>, warned: bool, current: Option<Question>,
                         callerId: Id, target: Id, r: Random, now: int)
    requires UniqueIds(ps)
    requires HasId(ps, callerId) && HasId(ps, target) && target != callerId && target != ""
    requires Steal in ps[IndexOf(ps, callerId)].abilities
    ensures var res := Use(ps, warned, current, callerId, Steal, Some(target), r, now);
            var k := IndexOf(ps, callerId);
            var t := IndexOf(ps, target);
      && res.outcome == Used(warned, None)
      && res.players[k].score == ps[k].score + StealPoints
      && res.players[t].score == ps[t].score - (if ps[t].score >= StealPoints then StealPoints else 0)
      && forall i :: 0 <= i < |ps| && i != k && i != t ==> res.players[i] == ps[i]
  {
    var k := IndexOf(ps, callerId);
    UseSpendsThenActs(ps, warned, current, callerId, Steal, Some(target), r, now);
    var ps1 := Spent(ps, k, Steal);
    IndexOfSameIds(ps, ps1, target);
    var t := IndexOf(ps, target);
    assert t != k;
    assert TargetIndex(ps1, Some(target)) == t;
    StolenScores(ps1, k, t);
  }

  /** Two rosters with the same ids in the same order locate an id at the
      same position. */
  lemma {:induction false} IndexOfSameIds(a: seq<PlayerState>, b: seq<PlayerState>, id: Id)
    requires |a| == |b| && forall i :: 0 <= i < |a| ==> a[i].id == b[i].id
    ensures IndexOf(a, id) == IndexOf(b, id)
  {
    if a != [] {
      IndexOfSameIds(a[1..], b[1..], id);
    }
  }

  /** `trick` on a present target during a question overwrites the
      target's answer to that question with a wrong option of it. No other
      answer of any seat changes, and beyond the spent instance nothing
      else does either. */
  lemma TrickPlantsWrongAnswer(ps: seq<PlayerState>, warned: bool, q: Question,
                               callerId: Id, target: Id, r: Random, now: int)
    requires HasId(ps, callerId) && Trick in ps[IndexOf(ps, callerId)].abilities
    requires HasId(ps, target) && target != ""
    requires WellFormedQuestion(q)
    ensures var res := Use(ps, warned, Some(q), callerId, Trick, Some(target), r, now);
            var t := IndexOf(ps, target);
      && res.outcome == Used(warned, None)
      && q.id in res.players[t].answers
      && res.players[t].answers[q.id].answerId != q.correctAnswerId
      && res.players[t].answers[q.id].answerId in q.answerIds
      && res.players[t].answers[q.id].timestamp == now
      && res.players[t].answers == ps[t].answers[q.id := res.players[t].answers[q.id]]
      && (forall i :: 0 <= i < |ps| && i != t ==> res.players[i].answers == ps[i].answers)
      && forall i :: 0 <= i < |ps| ==>
           res.players[i] == ps[i].(answers := res.players[i].answers, abilities := res.players[i].abilities)
  {
    var k := IndexOf(ps, callerId);
    UseSpendsThenActs(ps, warned, Some(q), callerId, Trick, Some(target), r, now);
    var ps1 := Spent(ps, k, Trick);
    IndexOfSameIds(ps, ps1, target);
    var t := IndexOf(ps, target);
    assert TargetIndex(ps1, Some(target)) == t;
    TrickedPlants(ps1, t, q, r, now);
    TrickLands(ps1, k, warned, q, target, r, now);
    SpentOnlyAbilities(ps, k, Trick);
    var after := Tricked(ps1, t, q, r, now).players;
    assert Use(ps, warned, Some(q), callerId, Trick, Some(target), r, now).players == after;
    assert ps1[t].answers == ps[t].answers;
    forall i | 0 <= i < |ps|
      ensures after[i] == ps[i].(answers := after[i].answers, abilities := after[i].abilities)
      ensures i != t ==> after[i].answers == ps[i].answers
    {
      assert ps1[i] == ps[i].(abilities := ps1[i].abilities);
    }
  }

  /** Spending an ability changes nothing but the caller's inventory. */
  lemma SpentOnlyAbilities(ps: seq<PlayerState>, k: nat, kind: AbilityType)
    requires k < |ps| && kind in ps[k].abilities
    ensures var r := Spent(ps, k, kind);
      forall i :: 0 <= i < |ps| ==> r[i] == ps[i].(abilities := r[i].abilities)
  {
  }

  /** Unfolding of `Effect`'s `Trick` branch for a present target and a
      current question, used by `TrickPlantsWrongAnswer`. */
  lemma TrickLands(ps: seq<PlayerState>, k: nat, warned: bool, q: Question, target: Id, r: Random, now: int)
    requires k < |ps| && TargetIndex(ps, Some(target)) >= 0
    requires Tricked(ps, TargetIndex(ps, Some(target)), q, r, now).outcome.Used?
    ensures Effect(ps, k, warned, Some(q), Trick, Some(target), r, now)
            == Tricked(ps, TargetIndex(ps, Some(target)), q, r, now).(outcome := Used(warned, None))
  {
  }

  /** `trick` with a well-formed question always finds a wrong option and
      records it with the current time as the target's answer to that
      question; every other answer and every other seat stay as they were. */
  lemma TrickedPlants(ps: seq<PlayerState>, t: nat, q: Question, r: Random, now: int)
    requires t < |ps| && WellFormedQuestion(q)
    ensures var res := Tricked(ps, t, q, r, now);
      && res.outcome == Used(false, None)
      && q.id in res.players[t].answers
      && res.players[t].answers[q.id].answerId != q.correctAnswerId
      && res.players[t].answers[q.id].answerId in q.answerIds
      && res.players[t].answers[q.id].timestamp == now
      && res.players[t] == ps[t].(answers := ps[t].answers[q.id := res.players[t].answers[q.id]])
      && forall i :: 0 <= i < |ps| && i != t ==> res.players[i] == ps[i]
  {
    var a :| a in q.answerIds && a != q.correctAnswerId;
    assert a in WrongAnswers(q);
  }

  /** `right` and `help` change nothing but the caller's inventory. */
  lemma LookingChangesNoScores(ps: seq<PlayerState>, warned: bool, current: Option<Question>,
                               callerId: Id, kind: AbilityType, target: Option<Id>, r: Random, now: int)
    requires kind == Right || kind == Help
    ensures var res := Use(ps, warned, current, callerId, kind, target, r, now);
      forall i :: 0 <= i < |ps| ==> res.players[i] == ps[i].(abilities := res.players[i].abilities)
  {
    var k := IndexOf(ps, callerId);
    if k >= 0 && kind in ps[k].abilities {
      UseSpendsThenActs(ps, warned, current, callerId, kind, target, r, now);
      SpentOnlyAbilities(ps, k, kind);
      assert Use(ps, warned, current, callerId, kind, target, r, now).players == Spent(ps, k, kind);
    }
  }
}

=== FILE: socket.dfy ===
/** The per-connection event handlers (server/sockets/gameSocket.js):
    session restore from a token, joining, the host-only commands, and
    the player actions, each reduced to the decision it makes before
    delegating to the room. */
module Socket {
  import opened Quiz
  import opened Rules
  import opened Players
  import opened Room
  import Standings

  /** The token cookie as the signature check sees it: no token, a token
      that does not verify (bad signature, expired, malformed), or the
      player id it carries. */
  datatype Credential = NoToken | Rejected | Verified(id: Id)

  /** The `sessionRestored` payload's decisions: the player's record, the
      phase, the question shown only while one is open, and standings only
      once the game is over. */
  datatype Snapshot = Snapshot(
    player: PlayerState,
    phase: Phase,
    currentQuestion: Option<Question>,
    gameResults: Option<Standings.GameResults>)

  /** What the connection is told on arrival. */
  datatype SessionReply =
    | Silent                   // nothing is emitted
    | KickedOut                // `sessionRestored` with `{ isKicked: true }`
    | Restored(snapshot: Snapshot)
    | InvalidateToken

  /** The `join` callback's payload; the signed token is left out. */
  datatype JoinReply = RoomFull | Joined(isHost: bool, playerId: Id, quizName: string)

  /** The nickname chat falls back to when the sender's is empty. */
  const Anonymous: string := "Анонимус"

  /** The record `new Player(id, nickname, avatarUrl)` starts with. */
  function Newcomer(id: Id, nickname: string, avatarUrl: string): PlayerState {
    PlayerState(id, None, nickname, avatarUrl, 0, false, map[], [], true)
  }

  /** The seat list after `addPlayer`: the first player to arrive is made
      host. */
  function Seated(ps: seq<PlayerState>, p: PlayerState): (r: seq<PlayerState>)
    ensures |r| == |ps| + 1 && r[..|ps|] == ps
    ensures r[|ps|].id == p.id && (r[|ps|].isHost <==> ps == [] || p.isHost)
    ensures r[|ps|] == p.(isHost := r[|ps|].isHost)
  {
    if ps == [] then [p.(isHost := true)] else ps + [p]
  }

  /** `{ ...message, playerId: socket.id, nickname, timestamp }`: the
      server's own sender fields override whatever the client sent. */
  function Stamped(text: string, socketId: string, nickname: string, now: int): (m: Message)
    ensures m.text == text && m.playerId == socketId && m.timestamp == now
    ensures m.nickname != ""
    ensures nickname != "" ==> m.nickname == nickname
    ensures nickname == "" ==> m.nickname == Anonymous
  {
    Message(text, socketId, if nickname == "" then Anonymous else nickname, now)
  }

  /** `setupSocket` on a new connection with socket id `socketId` whose
      token cookie verifies to `cred`, at time `now`. A kicked identity gets
      `isKicked` and no handlers at all (null); otherwise the connection is
      set up, with the restored player attached when there is one. */
  method SetupSocket(room: GameRoom, socketId: string, cred: Credential, now: int)
    returns (c: Connection?, reply: SessionReply)
    requires room.RosterValid() && room.TimerLinked()
    modifies room`kickedPlayers, room.players
    ensures room.RosterValid()
    ensures c != null ==> fresh(c) && c.room == room && c.socketId == socketId
    ensures !cred.Verified? ==>
              && c != null && c.player == null
              && reply == (if cred == NoToken then Silent else InvalidateToken)
              && room.kickedPlayers == old(room.kickedPlayers) && room.View() == old(room.View())
    ensures cred.Verified? ==> room.kickedPlayers == Swept(old(room.kickedPlayers), now)
    ensures cred.Verified? && cred.id in old(room.kickedPlayers) && now - old(room.kickedPlayers)[cred.id] <= KickTtl ==>
              c == null && reply == KickedOut && room.View() == old(room.View())
    ensures cred.Verified? && !(cred.id in old(room.kickedPlayers) && now - old(room.kickedPlayers)[cred.id] <= KickTtl) ==>
              var k := IndexOf(old(room.View()), cred.id);
              && c != null
              && (k < 0 ==> c.player == null && reply == Silent && room.View() == old(room.View()))
              && (k >= 0 ==> c.player == room.players[k] && reply.Restored? && reply.snapshot.player == room.View()[k]
                             && room.View() == old(room.View())[k := old(room.View())[k].(socketId := Some(socketId), connected := true)])
  {
    c := new Connection(room, socketId);
    if cred == NoToken {
      return c, Silent;
    }
    if cred == Rejected {
      return c, InvalidateToken;
    }
    var kicked;
    kicked, reply := c.Resume(cred.id, now);
    if kicked {
      c := null;
    }
  }

  /** `restorePlayer(id, socketId)` and, when a player comes back, the
      `sessionRestored` snapshot: the question only while one is open, the
      standings only once the game is over. */
  method Reconnect(room: GameRoom, socketId: string, id: Id) returns (p: Player?, reply: SessionReply)
    requires room.RosterValid() && room.TimerLinked()
    modifies room.players
    ensures room.RosterValid()
    ensures var k := IndexOf(old(room.View()), id);
      && (k < 0 ==> p == null && reply == Silent && room.View() == old(room.View()))
      && (k >= 0 ==>
            && p == room.players[k]
            && room.View() == old(room.View())[k := old(room.View())[k].(socketId := Some(socketId), connected := true)]
            && reply == Restored(Snapshot(
                 room.View()[k], room.gameState,
                 if room.gameState == QuestionOpen then room.CurrentQuestion() else None,
                 if room.gameState == Results then Standings.CalculateResults(room.View()) else None)))
  {
    p := room.RestorePlayer(id, socketId);
    if p == null {
      return p, Silent;
    }
    var question := None;
    if room.gameState == QuestionOpen {
      question := Some(room.questions[room.currentQuestionIndex]);
    }
    var results := None;
    if room.gameState == Results {
      results := room.CalculateResults();
    }
    reply := Restored(Snapshot(p.State(), room.gameState, question, results));
  }

  /** One connection: the room it talks to, its socket id, and the player
      it has joined or restored as, if any. */
  class Connection {
    const room: GameRoom
    const socketId: string
    var player: Player?

    constructor(room: GameRoom, socketId: string)
      ensures this.room == room && this.socketId == socketId && player == null
    {
      this.room := room;
      this.socketId := socketId;
      player := null;
    }

    /** `player && player.isHost`, read off this connection's own record,
        which may no longer be seated. */
    predicate IsHost()
      reads this, player
    {
      player != null && player.isHost
    }

    /** The verified-token branch of `setupSocket`: a kicked id is told so
        and gets no player; any other is restored. */
    method Resume(id: Id, now: int) returns (kicked: bool, reply: SessionReply)
      requires room.RosterValid() && room.TimerLinked() && player == null
      modifies this`player, room`kickedPlayers, room.players
      ensures room.RosterValid()
      ensures room.kickedPlayers == Swept(old(room.kickedPlayers), now)
      ensures kicked <==> id in old(room.kickedPlayers) && now - old(room.kickedPlayers)[id] <= KickTtl
      ensures kicked ==> reply == KickedOut && player == null && room.View() == old(room.View())
      ensures !kicked ==>
                var k := IndexOf(old(room.View()), id);
                && (k < 0 ==> player == null && reply == Silent && room.View() == old(room.View()))
                && (k >= 0 ==> player == room.players[k] && reply.Restored? && reply.snapshot.player == room.View()[k]
                               && room.View() == old(room.View())[k := old(room.View())[k].(socketId := Some(socketId), connected := true)])
    {
      ghost var before := room.View();
      kicked := room.IsPlayerKicked(id, now);
      assert room.View() == before;
      if kicked {
        return kicked, KickedOut;
      }
      reply := Restore(id);
    }

    /** `player = restorePlayer(id, socket.id)`, with the snapshot sent
        when a player comes back. */
    method Restore(id: Id) returns (reply: SessionReply)
      requires room.RosterValid() && room.TimerLinked()
      modifies this`player, room.players
      ensures room.RosterValid()
      ensures var k := IndexOf(old(room.View()), id);
        && (k < 0 ==> player == null && reply == Silent && room.View() == old(room.View()))
        && (k >= 0 ==>
              && player == room.players[k] && reply.Restored? && reply.snapshot.player == room.View()[k]
              && room.View() == old(room.View())[k := old(room.View())[k].(socketId := Some(socketId), connected := true)])
    {
      var p;
      p, reply := Reconnect(room, socketId, id);
      ghost var after := room.View();
      player := p;
      assert room.View() == after && room.RosterValid();
    }

    /** `join`: refused once ten players are seated; otherwise a new player
        with the fresh id `freshId` is seated and becomes this connection's
        player, and is host exactly when the room was empty. */
    method Join(nickname: string, avatarUrl: string, freshId: Id) returns (reply: JoinReply)
      requires room.RosterValid() && !HasId(room.View(), freshId)
      modifies this`player, room`players, room`hostId, room.players
      ensures room.RosterValid()
      ensures old(|room.players|) >= MaxPlayers ==>
                && reply == RoomFull && player == old(player)
                && room.players == old(room.players) && room.View() == old(room.View())
                && room.hostId == old(room.hostId)
      ensures old(|room.players|) < MaxPlayers ==>
                && player != null && fresh(player)
                && room.players == old(room.players) + [player]
                && room.View() == Seated(old(room.View()), Newcomer(freshId, nickname, avatarUrl))
                && reply == Joined(old(|room.players|) == 0, freshId, room.quizName)
                && reply.isHost == player.isHost
    {
      if |room.players| >= MaxPlayers {
        return RoomFull;
      }
      ghost var before := room.View();
      var p := new Player(freshId, nickname, avatarUrl);
      assert room.View() == before && p.State() == Newcomer(freshId, nickname, avatarUrl);
      player := p;
      var added := room.AddPlayer(p);
      assert room.View() == Seated(before, Newcomer(freshId, nickname, avatarUrl));
      reply := Joined(p.isHost, freshId, room.quizName);
    }

    /** `startGame` and `startCountdown` (both call `startCountdown()`):
        host only. */
    method StartCountdown()
      requires room.ClocksValid() && room.TimerLinked()
      modifies room`countdownTime, room`gameState, room`isLobbyPaused, room`countdownRunning
      ensures room.ClocksValid() && room.TimerLinked()
      ensures !IsHost() || old(room.countdownRunning) ==> unchanged(room)
      ensures IsHost() && !old(room.countdownRunning) ==>
                && room.gameState == Countdown && room.countdownRunning && !room.isLobbyPaused
                && room.countdownTime == (if old(room.countdownTime) <= 0 then CountdownSeconds else old(room.countdownTime))
    {
      if player != null && player.isHost {
        room.StartCountdown();
      }
    }

    /** `toggleCountdownPause`: host only, and only during the countdown. */
    method ToggleCountdownPause()
      modifies room`isLobbyPaused
      ensures room.isLobbyPaused
              == if IsHost() && room.gameState == Countdown then !old(room.isLobbyPaused) else old(room.isLobbyPaused)
    {
      if player != null && player.isHost {
        room.ToggleCountdownPause();
      }
    }

    /** `cancelCountdown`: host only; since the room never installs the
        timer handle it checks, it changes nothing for anyone. */
    method CancelCountdown()
      requires room.Fixed()
      modifies room`countdownTimer, room`gameState, room`countdownTime, room`isLobbyPaused
      ensures unchanged(room)
    {
      if player != null && player.isHost {
        room.CancelCountdown();
      }
    }

    /** `endGame`: host only; the standings computed are returned. */
    method EndGame() returns (results: Option<Standings.GameResults>)
      requires room.ClocksValid() && room.TimerLinked()
      modifies room`gameState, room`timerRunning, room`kickedPlayers, room`displayedQuestionNumber
      ensures room.ClocksValid() && room.TimerLinked()
      ensures !IsHost() ==> unchanged(room) && results == None
      ensures IsHost() ==> room.Ended() && results == Standings.CalculateResults(room.View())
    {
      results := None;
      if player != null && player.isHost {
        results := room.EndGame();
      }
    }

    /** `pauseGame`: host only, in any phase. */
    method PauseGame()
      modifies room`isPaused
      ensures room.isPaused == (IsHost() != old(room.isPaused))
    {
      if player != null && player.isHost {
        room.PauseGame();
      }
    }

    /** `kickPlayer(id)` at time `now`: no host check, so any connection,
        joined or not, removes the player and bars the id. */
    method KickPlayer(id: Id, now: int)
      requires room.RosterValid()
      modifies room`players, room`kickedPlayers, room`hostId, room.players
      ensures room.RosterValid()
      ensures !HasId(room.View(), id)
      ensures |room.players| == old(|room.players|) - (if HasId(old(room.View()), id) then 1 else 0)
      ensures room.kickedPlayers == if HasId(old(room.View()), id) then old(room.kickedPlayers)[id := now] else old(room.kickedPlayers)
      ensures var rest := Without(old(room.View()), id);
              var reassign := HasId(old(room.View()), id) && old(room.hostId) == Some(id) && |rest| > 0;
        && room.View() == (if reassign then WithHost(rest, rest[0].id) else rest)
        && room.hostId == (if reassign then Some(rest[0].id) else old(room.hostId))
    {
      ghost var before := room.View();
      ghost var host := room.hostId;
      var removed := room.RemovePlayer(id, now);
      ghost var rest := Without(before, id);
      if !HasId(before, id) {
        WithoutAbsent(before, id);
      }
      if HasId(before, id) && host == Some(id) && |rest| > 0 {
        WithHostAbsent(rest, rest[0].id, id);
      }
    }

    /** `answer`: recorded for this connection's player, if it has one. */
    method Answer(qid: int, aid: int, now: int)
      requires room.RosterValid()
      modifies room.players
      ensures room.RosterValid()
      ensures room.View() == if player != null && room.gameState == QuestionOpen
                             then Answered(old(room.View()), player.id, qid, aid, now)
                             else old(room.View())
    {
      if player != null {
        room.HandleAnswer(player.id, qid, aid, now);
      }
    }

    /** `sendMessage` with text `text` at time `now`: ignored without a
        player; otherwise stamped with the socket id, the player's nickname
        and the server time. */
    method SendMessage(text: string, now: int)
      requires room.ClocksValid()
      modifies room`messages
      ensures room.ClocksValid()
      ensures room.messages == if player == null then old(room.messages)
                               else Appended(old(room.messages), Stamped(text, socketId, player.nickname, now))
    {
      if player == null {
        return;
      }
      var m := Message(text, socketId, if player.nickname == "" then Anonymous else player.nickname, now);
      room.AddMessage(m);
    }

    /** `requestChatHistory`: the room's chat, at most the capped length. */
    method RequestChatHistory() returns (history: seq<Message>)
      requires room.ClocksValid()
      ensures history == room.messages && |history| <= HistoryCap
    {
      history := room.messages;
    }

    /** `useAbility` with draw `r` at time `now`: ignored without a player;
        otherwise the room's outcome, and `abilityUsed` is acknowledged
        only when the room did not throw. */
    method UseAbility(kind: AbilityType, target: Option<Id>, r: Random, now: int)
      returns (outcome: Option<UseOutcome>, acknowledged: bool)
      requires room.RosterValid()
      modifies room.players
      ensures room.RosterValid()
      ensures player == null ==> outcome == None && !acknowledged && room.View() == old(room.View())
      ensures player != null ==>
                && outcome.Some? && (acknowledged <==> outcome.value.Used?)
                && UseResult(room.View(), outcome.value)
                   == Use(old(room.View()), room.gameState != QuestionOpen || room.isPaused, room.CurrentQuestion(),
                          player.id, kind, target, r, now)
    {
      if player == null {
        return None, false;
      }
      var o := room.UseAbility(player.id, kind, target, r, now);
      outcome := Some(o);
      acknowledged := o.Used?;
    }

    /** `disconnect`: this connection's player, wherever it is, is marked
        disconnected; no seat changes otherwise. */
    method Disconnect()
      requires room.RosterValid()
      modifies player
      ensures room.RosterValid()
      ensures player != null ==> player.State() == old(player.State()).(connected := false)
      ensures |room.View()| == old(|room.View()|)
      ensures forall k :: 0 <= k < |room.players| ==>
                room.View()[k] == if room.players[k] == player then old(room.View()[k]).(connected := false)
                                  else old(room.View()[k])
    {
      if player == null {
        return;
      }
      ghost var before := room.View();
      player.connected := false;
      forall k | 0 <= k < |room.players|
        ensures room.View()[k] == if room.players[k] == player then before[k].(connected := false) else before[k]
      {
      }
      SameSeats(before, room.View(), room.hostId);
    }
  }
}

=== FILE: standings.dfy ===
/** Final standings (`calculateResults`): the roster sorted by score,
    highest first, with a stable sort, read off at both ends. */
module Standings {
  import opened Quiz

  /** A standings entry: a player, or the placeholder
      `{ nickname: "", score: 0 }` used when there is no second player. */
  datatype Entry = Ranked(player: PlayerState) | Blank

  datatype GameResults = GameResults(winner: Entry, dumbest: Entry)

  predicate SortedDesc(s: seq<PlayerState>) {
    forall i, j :: 0 <= i < j < |s| ==> s[i].score >= s[j].score
  }

  /** Insert `x`, which came before every element of `s` in the roster,
      ahead of all elements it does not score below (stability). */
  function Insert(x: PlayerState, s: seq<PlayerState>): (r: seq<PlayerState>)
    requires SortedDesc(s)
    ensures SortedDesc(r)
    ensures multiset(r) == multiset(s) + multiset{x}
    ensures |r| == |s| + 1
    ensures r[0] == if s == [] || x.score >= s[0].score then x else s[0]
  {
    if s == [] || x.score >= s[0].score then
      FrontSorted(x, s);
      [x] + s
    else
      var rest := Insert(x, s[1..]);
      assert s == [s[0]] + s[1..];
      HeadDominates(s[0], s[1..], x, rest);
      assert multiset([s[0]] + rest) == multiset{s[0]} + multiset(rest);
      [s[0]] + rest
  }

  /** Where `Insert` puts `x` in a descending `s`: past exactly the
      elements that score strictly higher. */
  function Rank(x: PlayerState, s: seq<PlayerState>): (p: nat)
    requires SortedDesc(s)
    ensures p <= |s|
    ensures forall i :: 0 <= i < p ==> s[i].score > x.score
    ensures forall i :: p <= i < |s| ==> x.score >= s[i].score
  {
    if s == [] || x.score >= s[0].score then 0
    else
      var p := 1 + Rank(x, s[1..]);
      assert forall i :: 1 <= i < |s| ==> s[i] == s[1..][i - 1];
      p
  }

  /** Insertion is stable: `x` lands at `Rank(x, s)`, after the elements
      that score strictly higher and ahead of every element it ties with,
      and the others keep their order. */
  lemma {:induction false} InsertStable(x: PlayerState, s: seq<PlayerState>)
    requires SortedDesc(s)
    ensures Insert(x, s) == s[..Rank(x, s)] + [x] + s[Rank(x, s)..]
  {
    if s != [] && x.score < s[0].score {
      var t := s[1..];
      InsertStable(x, t);
      var q := Rank(x, t);
      InsertBehind(x, s);
      assert s == [s[0]] + t;
      SplitBehindHead(s[0], t, q, x);
    }
  }

  /** Below the head, `x` is inserted into the tail. */
  lemma InsertBehind(x: PlayerState, s: seq<PlayerState>)
    requires SortedDesc(s) && s != [] && x.score < s[0].score
    ensures Insert(x, s) == [s[0]] + Insert(x, s[1..])
    ensures Rank(x, s) == Rank(x, s[1..]) + 1
  {
  }

  /** Splitting behind a head is splitting the tail one place earlier. */
  lemma SplitBehindHead<T>(h: T, t: seq<T>, q: nat, x: T)
    requires q <= |t|
    ensures ([h] + t)[..q + 1] + [x] + ([h] + t)[q + 1..] == [h] + (t[..q] + [x] + t[q..])
  {
    assert ([h] + t)[..q + 1] == [h] + t[..q];
    assert ([h] + t)[q + 1..] == t[q..];
  }

  /** An element scoring at least the head of a sorted sequence can go in
      front of it. */
  lemma FrontSorted(x: PlayerState, s: seq<PlayerState>)
    requires SortedDesc(s)
    requires s == [] || x.score >= s[0].score
    ensures SortedDesc([x] + s)
  {
    var r := [x] + s;
    forall i, j | 0 <= i < j < |r| ensures r[i].score >= r[j].score {
      assert r[j] == s[j - 1];
      if i > 0 { assert r[i] == s[i - 1]; }
    }
  }

  /** An element that scores at least as high as all of `s` and as `x`
      scores at least as high as any arrangement of them. */
  lemma HeadDominates(h: PlayerState, s: seq<PlayerState>, x: PlayerState, rest: seq<PlayerState>)
    requires forall j :: 0 <= j < |s| ==> h.score >= s[j].score
    requires h.score >= x.score
    requires SortedDesc(rest) && multiset(rest) == multiset(s) + multiset{x}
    ensures SortedDesc([h] + rest)
  {
    forall j | 0 <= j < |rest| ensures h.score >= rest[j].score {
      assert rest[j] in multiset(rest);
      if rest[j] != x {
        assert rest[j] in multiset(s);
        assert rest[j] in s;
      }
    }
    var r := [h] + rest;
    forall i, j | 0 <= i < j < |r| ensures r[i].score >= r[j].score {
      assert r[j] == rest[j - 1];
      if i > 0 { assert r[i] == rest[i - 1]; }
    }
  }

  /** `[...players].sort((a, b) => b.score - a.score)`, a stable sort. */
  function SortByScore(s: seq<PlayerState>): (r: seq<PlayerState>)
    ensures SortedDesc(r)
    ensures multiset(r) == multiset(s)
    ensures |r| == |s|
  {
    if s == [] then []
    else
      assert s == [s[0]] + s[1..];
      Insert(s[0], SortByScore(s[1..]))
  }

  /** The first position, in roster order, holding the highest score. */
  function FirstMax(s: seq<PlayerState>): (k: nat)
    requires |s| > 0
    ensures k < |s|
    ensures forall j :: 0 <= j < |s| ==> s[j].score <= s[k].score
    ensures forall j :: 0 <= j < k ==> s[j].score < s[k].score
  {
    if |s| == 1 then 0
    else
      var k := FirstMax(s[1..]);
      assert forall j :: 1 <= j < |s| ==> s[j] == s[1..][j - 1];
      if s[0].score >= s[k + 1].score then 0 else k + 1
  }

  /** The last position, in roster order, holding the lowest score. */
  function LastMin(s: seq<PlayerState>): (k: nat)
    requires |s| > 0
    ensures k < |s|
    ensures forall j :: 0 <= j < |s| ==> s[k].score <= s[j].score
    ensures forall j :: k < j < |s| ==> s[k].score < s[j].score
  {
    if |s| == 1 then 0
    else
      var k := LastMin(s[1..]);
      assert forall j :: 1 <= j < |s| ==> s[j] == s[1..][j - 1];
      if s[0].score < s[k + 1].score then 0 else k + 1
  }

  /** The head of the sorted roster is the first top scorer. */
  lemma {:induction false} SortHead(s: seq<PlayerState>)
    requires |s| > 0
    ensures SortByScore(s)[0] == s[FirstMax(s)]
  {
    if |s| > 1 {
      SortHead(s[1..]);
    }
  }

  /** Inserting `x` leaves it last exactly when it scores below the
      current last element. */
  lemma {:induction false} InsertLast(x: PlayerState, s: seq<PlayerState>)
    requires SortedDesc(s) && |s| > 0
    ensures var r := Insert(x, s);
      r[|r| - 1] == if x.score < s[|s| - 1].score then x else s[|s| - 1]
  {
    if x.score >= s[0].score {
      assert Insert(x, s) == [x] + s;
    } else {
      var t := s[1..];
      var rest := Insert(x, t);
      assert Insert(x, s) == [s[0]] + rest;
      if |t| > 0 {
        InsertLast(x, t);
        assert t[|t| - 1] == s[|s| - 1];
      }
    }
  }

  /** The last of the sorted roster is the last bottom scorer. */
  lemma {:induction false} SortLast(s: seq<PlayerState>)
    requires |s| > 0
    ensures SortByScore(s)[|s| - 1] == s[LastMin(s)]
  {
    if |s| > 1 {
      var t := s[1..];
      var sorted := SortByScore(t);
      SortLast(t);
      InsertLast(s[0], sorted);
      assert SortByScore(s) == Insert(s[0], sorted);
      var k := LastMin(t);
      assert s[k + 1] == t[k];
      assert LastMin(s) == if s[0].score < t[k].score then 0 else k + 1;
    }
  }

  /** `calculateResults()`: nothing for an empty room; otherwise the
      winner is the first player with the highest score and, with two or
      more players, the loser is the last player with the lowest score. */
  function CalculateResults(ps: seq<PlayerState>): (r: Option<GameResults>)
    ensures r.None? <==> ps == []
    ensures r.Some? ==> r.value.winner == Ranked(ps[FirstMax(ps)])
    ensures r.Some? ==> r.value.dumbest == if |ps| > 1 then Ranked(ps[LastMin(ps)]) else Blank
  {
    if ps == [] then None
    else
      var sorted := SortByScore(ps);
      SortHead(ps);
      SortLast(ps);
      Some(GameResults(Ranked(sorted[0]), if |sorted| > 1 then Ranked(sorted[|sorted| - 1]) else Blank))
  }
}
